=== FILE: README.md ===
# life-py: the Notion query, mutation and object layer in Dafny

This project models the typed layer that the `life` command-line tool puts
between its commands and a Notion-style document backend:

- **Filters, sorts and assignments** (`life/notion/filters.py`).
  - Property descriptors (`Checkbox`, `Date`, `Number`, `Status`, `Title`, `Relation`, ...) build `Condition` filters out of comparison operators.
  - Filters compose with `&` and `|`. An operand that is already a group of the same kind is spliced in, not nested.
  - `all`/`any` group their arguments verbatim.
  - Sorts name a column and a direction.
  - Assignments carry typed values. A list of them merges into one object keyed by column name.
  - Every one of these values has a fixed JSON form.
- **The object schema and the block builder** (`life/notion/schema.py`).
  - Rich text, parents, files and icons.
  - The 22 page property values and the 20 database column types.
  - Pages and databases with their typed accessors.
  - Paginated query results with their keyed views.
  - The 26 inner blocks a client can create, and the asymmetric serialiser for lists of them.
  - The `BlockBuilder` factories with their normalising helpers `_richify` and `_children`.

JSON is the datatype `Json.J`. An object is an insertion-ordered list of `(key, value)` entries, because Python dicts keep insertion order.

The module `Dicts` models Python's dict operations on such lists:
- `{**d, **e}` replaces a key's value in place or appends a new key.
- A dict comprehension writes its entries left to right, so the last entry for a key wins. A key keeps the position of its first occurrence.

The modules follow the source files:
- `Filters` and `FilterLaws` cover `filters.py`.
- `Schema` and `SchemaLaws` cover the object model of `schema.py`.
- `Blocks`, `BlockBuilder` and `BlockLaws` cover its inner blocks and builder.

The models are serialised the way the client's request code dumps them (`model_dump(mode="json")` in `life/notion/endpoints.py`, without `exclude_none`). A `None` field therefore appears as `null`. In particular, a builder-made text fragment serialises as `{"text": {"content": c, "link": null}}`. A hand-written request body would usually leave `"link"` out; the dumped one carries it, and the model follows the code (`BlockLaws.TodoScenario`).

Values that the source validates with pydantic are plain strings here: dates, datetimes, UUIDs, URLs, e-mail addresses, colours and number formats. Numbers are integers.

## Model

| member | source | states |
|---|---|---|
| `Dicts.PutGet` | life/notion/filters.py:560 | merging `{k: v}` into a dict makes `k` map to `v` and leaves every other key's value as it was |
| `Dicts.PutAbsent` | life/notion/filters.py:560 | merging a new key appends it after the existing entries |
| `Dicts.FromPairsDistinctKeys` | life/notion/schema.py:1832-1833 | a dict comprehension never repeats a key |
| `Dicts.FromPairsLastWins` | life/notion/schema.py:1832-1833 | in a dict comprehension, each key keeps the value from the last entry that carries it |
| `Dicts.FromPairsGet` | life/notion/schema.py:1832-1833 | a comprehension maps `k` to `v` if and only if the last entry with key `k` holds `v` |
| `Dicts.FromPairsDistinct` | life/notion/schema.py:1832-1833 | a comprehension over entries without repeated keys keeps all of them, in order |
| `Filters.SerializeFilters` | life/notion/filters.py:510-523 | a filter group's JSON lists one serialised child per child, in order |
| `Filters.SerializeSorts` | life/notion/filters.py:531-536 | a sort list serialises sort by sort, in order |
| `Filters.SerializeFragments` | life/notion/filters.py:633-646 | title and rich-text values serialise fragment by fragment, in order |
| `Filters.NameObjects` | life/notion/filters.py:657-662 | a multi-select value becomes one `{"name": n}` per name, in order |
| `Filters.IdObjects` | life/notion/filters.py:677-686 | a relation value becomes one `{"id": i}` per id, in order |
| `Filters.SerializeAssignList` | life/notion/filters.py:553-561 | the merged assignments form one object with no repeated key; its keys are exactly the assigned column names; a column assigned twice keeps the later value; every other key holds its single assignment's `{kind: value}` |
| `Filters.MergedAssignKeys` | life/notion/filters.py:553-561 | merging the assignments' entries repeats no key, and a name is a key exactly when some assignment writes it |
| `Filters.MergedAssignLastWins` | life/notion/filters.py:553-561 | in the merged entries each column holds the value of its last assignment |
| `Filters.TextAssign` | life/notion/filters.py:219-282 | `Title.assign` / `RichText.assign` wrap a single argument into a list and turn each string into a `Text` fragment; mentions pass through unchanged; length and order are kept, and on the wire each string piece is `{"text": {"content": s}}` at its own position |
| `Filters.SerializeOperator` | life/notion/filters.py:303-458 | every operator serialises to a one-key object that the operator reader reads back, a date compared for equality coming back as text (law: `FilterLaws.OperatorRoundTrip`) |
| `Filters.Conjoin` | life/notion/filters.py:467-474 | `a & b` is an `And` with as many children as the operands contribute, a non-`And` operand kept whole as the first or last child; flat operands give a flat result (laws: `FilterLaws.ConjoinSplices`, `FilterLaws.ConjoinAssociative`) |
| `Filters.Disjoin` | life/notion/filters.py:476-483 | `a \| b` is an `Or` built the same way from `Or` operands (laws: `FilterLaws.DisjoinSplices`, `FilterLaws.DisjoinAssociative`) |
| `Filters.AllOf` | life/notion/filters.py:694-695 | `all(*args)` is an `And` holding exactly its arguments, and for two non-`And` arguments it is `a & b` (law: `FilterLaws.AllOfPairIsConjoin`) |
| `Filters.AnyOf` | life/notion/filters.py:698-699 | `any(*args)` is an `Or` holding exactly its arguments, and for two non-`Or` arguments it is `a \| b` (law: `FilterLaws.AllAnyVerbatim`) |
| `Filters.SerializeFilter` | life/notion/filters.py:490-523 | a condition gives two distinct keys, `"property"` with the column name and then the operator object; a group gives one `"and"` or `"or"` key listing one JSON per child; a custom filter passes its raw object (laws: `FilterLaws.ConditionShape`, `FilterLaws.SerializeConjoin`) |
| `Filters.HasItem` | life/notion/filters.py:55-56 | `contains(item)` is a condition on the column whose operator object is `{"contains": item}` (law: `FilterLaws.HasItemInjective`) |
| `Filters.InOperator` | life/notion/filters.py:46-47 | as written, `item in property` evaluates to `True` whatever the item (see Findings; laws: `FilterLaws.InOperatorForgetsItem`, `FilterLaws.InOperatorCounterexample`) |
| `Filters.SerializeSort` | life/notion/filters.py:531-533 | a sort serialises to two keys and the sort reader reads it back (law: `FilterLaws.SortRoundTrip`) |
| `Filters.SerializeValue` | life/notion/filters.py:569-686 | a value serialises by kind: a plain scalar as itself, text and title fragments in order, a name as `{"name": n}`, names and relation ids one object each in order, a date as `{"start", "end"}` (law: `FilterLaws.AssignmentShapes`) |
| `Filters.SerializeAssign` | life/notion/filters.py:544-550 | an assignment is an object with the column name as its only key, holding `{kind: value}` (law: `FilterLaws.AssignmentShapes`) |
| `FilterLaws.ConjoinSplices` | life/notion/filters.py:467-474 | `a & b` is an `And` of `a`'s children (or `[a]`) followed by `b`'s children (or `[b]`), in all four cases |
| `FilterLaws.DisjoinSplices` | life/notion/filters.py:476-483 | `a \| b` splices `Or` operands the same way |
| `FilterLaws.ConjoinAssociative` | life/notion/filters.py:467-474 | `(a & b) & c` and `a & (b & c)` are the same filter |
| `FilterLaws.DisjoinAssociative` | life/notion/filters.py:477-483 | `(a \| b) \| c` and `a \| (b \| c)` are the same filter |
| `FilterLaws.ConjoinFlat` | life/notion/filters.py:468-474 | `&` of operands without nested `And`s yields an `And` with no `And` child |
| `FilterLaws.DisjoinFlat` | life/notion/filters.py:478-483 | `\|` of operands without nested `Or`s yields an `Or` with no `Or` child |
| `FilterLaws.MixedGroupsNest` | life/notion/filters.py:469-482 | an `Or` operand of `&` and an `And` operand of `\|` stay single nested children |
| `FilterLaws.AllOfPairIsConjoin` | life/notion/filters.py:694-695 | `all(a, b)` equals `a & b` if and only if neither operand is an `And` |
| `FilterLaws.AllAnyVerbatim` | life/notion/filters.py:694-699 | `all` / `any` keep their arguments verbatim: same length, same order, no flattening |
| `FilterLaws.ConjoinChainFlattens` | life/notion/filters.py:467-474 | a left-to-right chain `f0 & f1 & ... & fn` collects every operand into one `And` |
| `FilterLaws.ConjoinNestFlattens` | life/notion/filters.py:467-474 | a right-nested `&` of conditions is the same filter as `all` of them |
| `FilterLaws.ChainsSerializeAlike` | life/notion/filters.py:510-515 | left-nested, right-nested and `all` forms of the same conditions give identical JSON |
| `FilterLaws.SerializeFiltersAppend` | life/notion/filters.py:513-515 | serialising concatenated filter lists concatenates their JSON |
| `FilterLaws.SerializeConjoin` | life/notion/filters.py:467-515 | the JSON of `a & b` is `{"and": [...]}` listing the spliced operands' JSON in order |
| `FilterLaws.ConditionShape` | life/notion/filters.py:498-507 | a condition serialises to exactly two distinct keys: `"property"` with the column name, and the column kind with an operator object of exactly one key |
| `FilterLaws.CheckboxAndSelectScenario` | life/notion/filters.py:467-507 | `Checkbox("Done").unchecked() & Select("Type").equals("Credit")` serialises to `{"and": [{"property": "Done", "checkbox": {"equals": false}}, {"property": "Type", "select": {"equals": "Credit"}}]}`; the same filter shape is built in `life/commands/account.py:48-50` |
| `FilterLaws.CheckboxFilters` | life/notion/filters.py:75-79 | `checked()` / `unchecked()` serialise to `equals: true` / `equals: false` |
| `FilterLaws.StatusFilters` | life/notion/filters.py:250-266 | each status helper is `equals` with its literal name: "Not started", "In progress", "Paused", "Done", "Abandoned" |
| `FilterLaws.DateComparisons` | life/notion/filters.py:99-121 | date `>`, `>=`, `<`, `<=` serialise under `after`, `on_or_after`, `before`, `on_or_before`, carrying the date |
| `FilterLaws.NumberComparisons` | life/notion/filters.py:186-196 | number `<`, `<=`, `>`, `>=` serialise under `less_than`, `less_than_or_equal_to`, `greater_than`, `greater_than_or_equal_to`, carrying the number |
| `FilterLaws.DateWindowOperators` | life/notion/filters.py:123-142 | each relative date window (`next_month` ... `this_week`) serialises under its own key and carries `{}` |
| `FilterLaws.EmptinessOperators` | life/notion/filters.py:61-65 | `empty()` / `not_empty()`, on a column of any kind, serialise to `{"property": name, kind: {"is_empty": true}}` / `{..., "is_not_empty": true}` |
| `FilterLaws.OperatorRoundTrip` | life/notion/filters.py:303-458 | every operator is read back from its one-key JSON; a date compared for equality comes back as its text |
| `FilterLaws.OperatorSerializationInjective` | life/notion/filters.py:303-458 | two operators serialise alike if and only if they agree once dates are read as text |
| `FilterLaws.HasItemInjective` | life/notion/filters.py:55-56 | `contains(a)` and `contains(b)` on one column are the same filter if and only if `a == b` |
| `FilterLaws.InOperatorForgetsItem` | life/notion/filters.py:46-47 | as written, `a in p` and `b in p` always agree, whatever `a` and `b` are |
| `FilterLaws.InOperatorCounterexample` | life/notion/filters.py:46-47 | `"work" in MultiSelect("Tags")` and `"home" in MultiSelect("Tags")` are both `True`, although the two `contains` filters differ |
| `FilterLaws.SortRoundTrip` | life/notion/filters.py:531-533 | a sort is read back from its JSON |
| `FilterLaws.SortShape` | life/notion/filters.py:43-44 | `property.sort(direction)` names the column and spells the direction `"ascending"` or `"descending"` |
| `FilterLaws.RelationNormalised` | life/notion/filters.py:677-686 | a relation is always a list of `{"id": ...}`; a single id and the one-element list of it serialise alike; list order and length are kept |
| `FilterLaws.NamesSerialised` | life/notion/filters.py:657-662 | a multi-select keeps its names, in order, each as `{"name": ...}` |
| `FilterLaws.TitleSerialised` | life/notion/filters.py:581-586 | a title keeps its fragments in order; text becomes `{"text": {"content": ...}}` |
| `FilterLaws.TextValuesSerialiseAlike` | life/notion/filters.py:633-646 | rich-text and title values serialise their fragments identically |
| `FilterLaws.MentionShape` | life/notion/filters.py:589-627 | every mention is one `"mention"` key holding one key named after the mentioned kind; a date mention holds exactly `{"start": s, "end": e}` with `end` null when absent, a page, database or user mention exactly `{"id": ...}`, and a link-preview mention exactly `{"url": ...}` |
| `FilterLaws.AssignmentShapes` | life/notion/filters.py:544-550 | each descriptor's `assign` (checkbox, number, date, status, select, multi-select, relation, title, rich text) yields `{name: {kind: value}}` with the value's documented shape |
| `FilterLaws.ScalarAssignShapes` | life/notion/filters.py:72-98 | checkbox, number and date assignments give `{name: {"checkbox": b}}`, `{name: {"number": n}}` and `{name: {"date": {"start", "end"}}}` |
| `FilterLaws.ChoiceAssignShapes` | life/notion/filters.py:171-248 | status and select assignments give `{"name": choice}`, multi-select one name object per name, relation one id object per id |
| `FilterLaws.TextAssignShapes` | life/notion/filters.py:219-282 | title and rich-text assignments give `{name: {"title": [...]}}` and `{name: {"rich_text": [...]}}`, one serialised fragment per fragment, in order |
| `Schema.SerializeRichText` | life/notion/schema.py:333-334 | rich text serialises fragment by fragment, in order |
| `Schema.CollectPlainTexts` | life/notion/schema.py:1252-1253 | reading `plain_text` from each fragment fails at the first fragment that lacks the attribute, and otherwise yields every fragment's value in order |
| `Schema.Join` | life/notion/schema.py:1252-1253 | `"".join` fails exactly when some part is `None`, and reports the first such part |
| `Schema.PlainText` | life/notion/schema.py:1252-1253 | plain text succeeds if and only if every fragment carries text |
| `Schema.DateStart` | life/notion/schema.py:1067-1070 | `start()` is absent exactly when the date is absent, and otherwise is the date's start |
| `Schema.DateEnd` | life/notion/schema.py:1072-1075 | `end()` is absent when the date is absent, and otherwise is the date's end |
| `Schema.FormulaAsBoolean` | life/notion/schema.py:1104-1106 | `as_boolean()` succeeds exactly on a boolean formula and returns its value |
| `Schema.FormulaAsNumber` | life/notion/schema.py:1108-1110 | `as_number()` succeeds exactly on a number formula and returns its value |
| `Schema.FormulaAsString` | life/notion/schema.py:1112-1114 | `as_string()` succeeds exactly on a string formula and returns its value |
| `Schema.FormulaAsDate` | life/notion/schema.py:1116-1118 | `as_date()` succeeds exactly on a date formula and returns its value |
| `Schema.RollupAsNumber` | life/notion/schema.py:1205-1207 | a rollup's `as_number()` succeeds exactly on a number rollup |
| `Schema.RollupAsDate` | life/notion/schema.py:1209-1211 | a rollup's `as_date()` succeeds exactly on a date rollup |
| `Schema.TitlePlainText` | life/notion/schema.py:1252-1253 | a title's plain text succeeds if and only if each of its fragments carries text |
| `Schema.RichTextPlainTextAsWritten` | life/notion/schema.py:1193-1194 | as written, `RichTextValue.plain_text()` fails on every value (see Findings) |
| `Schema.RichTextPlainText` | life/notion/schema.py:1193-1194 | the corrected reader succeeds if and only if each fragment carries text |
| `Schema.Typed` | life/notion/schema.py:1344-1347 | a typed accessor succeeds if and only if the property exists and has the requested variant, and then returns it unchanged; otherwise it reports the missing key or the wrong variant |
| `Schema.Checkboxes` | life/notion/schema.py:1349-1354 | `checkboxes()` holds exactly the checkbox-typed properties, unchanged, which are exactly the names the `checkbox` accessor accepts |
| `Schema.At` | life/notion/schema.py:1826-1827 | indexing succeeds exactly for `-count <= i < count`, and negative indices count from the end |
| `Schema.First` | life/notion/schema.py:1841-1843 | `first()` fails exactly on an empty listing and otherwise returns the first result |
| `Schema.PageNames` | life/notion/schema.py:1838-1839 | naming every page succeeds if and only if every page has a name, and keeps the order |
| `Schema.ParentId` | life/notion/schema.py:369-376 | `id()` is absent exactly for a workspace parent (law: `SchemaLaws.ParentIdUnderTag`) |
| `Schema.SerializeParent` | life/notion/schema.py:338-366 | a parent serialises to two keys, and the parent decoder gives the parent back (law: `SchemaLaws.ParentRoundTrip`) |
| `Schema.DecodeParent` | life/notion/schema.py:338-366 | anything but an object is rejected; a decoded parent has its tag under `"type"` and its payload under its own tag (laws: `SchemaLaws.DecodeParentSound`, `SchemaLaws.DecodeParentErrors`) |
| `Schema.PageName` | life/notion/schema.py:1341-1342 | a page without a "Name" property reports it missing; a name is only ever the plain text of a title stored under "Name" (law: `SchemaLaws.PageNameSpec`) |
| `Schema.Count` | life/notion/schema.py:1820-1821 | the count is positive if and only if `first()` succeeds, and an index succeeds exactly when `-count <= i < count` (law: `SchemaLaws.IndexingFromEitherEnd`) |
| `Schema.InverseMap` | life/notion/schema.py:1832-1833 | `inverse_map(f)` has no repeated key, and its keys are exactly the values of `f` on the results (law: `SchemaLaws.InverseMapSpec`) |
| `Schema.MapById` | life/notion/schema.py:1829-1830 | `map(f)` has no repeated key, and its keys are exactly the result ids (law: `SchemaLaws.MapByIdSpec`) |
| `Schema.ById` | life/notion/schema.py:1835-1836 | `by_id()` has no repeated key, and every result id is a key (law: `SchemaLaws.ByIdSpec`) |
| `Schema.ByName` | life/notion/schema.py:1838-1839 | `by_name()` succeeds if and only if every page has a name, and then has no repeated key (laws: `SchemaLaws.ByNameSucceeds`, `SchemaLaws.ByNameSpec`) |
| `SchemaLaws.ParentRoundTrip` | life/notion/schema.py:338-366 | decoding the JSON of any parent gives that parent back |
| `SchemaLaws.DecodeParentSound` | life/notion/schema.py:338-366 | whatever decodes to a parent carries that parent's tag and payload |
| `SchemaLaws.DecodeParentErrors` | life/notion/schema.py:358-361 | the parent decoder reports a missing tag, a tag that is not a string, an unknown tag and a payload of the wrong type |
| `SchemaLaws.ParentIdUnderTag` | life/notion/schema.py:369-376 | `id()` is absent exactly for a workspace parent, and otherwise is the id stored under the parent's own tag |
| `SchemaLaws.JoinAppend` | life/notion/schema.py:1252-1253 | joining two runs of text joins their results |
| `SchemaLaws.PlainTextSingle` | life/notion/schema.py:1252-1253 | a fragment that carries text contributes exactly that text |
| `SchemaLaws.PlainTextAppend` | life/notion/schema.py:1252-1253 | the plain text of concatenated rich text is the concatenation of the parts' plain texts |
| `SchemaLaws.PlainTextFailure` | life/notion/schema.py:1252-1253 | a missing `plain_text` attribute is reported, at its first occurrence, ahead of any `None` value; with no missing attribute the first `None` is reported |
| `SchemaLaws.TitleAndRichTextAgree` | life/notion/schema.py:1252-1253 | titles and the corrected rich-text reader read the same text from the same fragments |
| `SchemaLaws.RichTextPlainTextAsWrittenFails` | life/notion/schema.py:1193-1194 | the reader as written fails on every rich-text value |
| `SchemaLaws.RichTextPlainTextCounterexample` | life/notion/schema.py:1193-1194 | on one text fragment reading "a", the reader as written fails where the corrected one returns "a" |
| `SchemaLaws.StatusLiteralsMatchFilters` | life/notion/schema.py:1234-1241 | `not_started()`, `in_progress()` and `done()` test the same names the status filters send, and no two of them hold at once |
| `SchemaLaws.FormulaReadersExclusive` | life/notion/schema.py:1104-1118 | exactly one of a formula's four readers succeeds |
| `SchemaLaws.DateEndNeedsStart` | life/notion/schema.py:1067-1075 | an end date is only ever returned alongside a start date |
| `SchemaLaws.ValueTagNamesVariant` | life/notion/schema.py:1289-1314 | each of the 22 property-value tags names its variant, in both directions |
| `SchemaLaws.PageAccessors` | life/notion/schema.py:1344-1450 | `checkbox`, `date`, `relation`, `status` and `title` succeed if and only if the named property exists with that variant; a missing name is reported as such |
| `SchemaLaws.PageNameSpec` | life/notion/schema.py:1341-1342 | `name()` succeeds if and only if the page has a title called "Name" whose every fragment carries text, and then it is that title's plain text |
| `SchemaLaws.DatabaseColumnSpec` | life/notion/schema.py:1691-1797 | a database's column accessors succeed if and only if the column exists with the requested type, and then return it unchanged |
| `SchemaLaws.IndexingFromEitherEnd` | life/notion/schema.py:1826-1827 | index `-(k+1)` is index `count-1-k`, and `first()` is index 0 |
| `SchemaLaws.FirstFailsWhenEmpty` | life/notion/schema.py:1841-1843 | `first()` fails if and only if the listing is empty, and then every index fails |
| `SchemaLaws.InverseMapSpec` | life/notion/schema.py:1832-1833 | `inverse_map(f)` has no repeated key, and each key holds the last result that produced it |
| `SchemaLaws.ByIdSpec` | life/notion/schema.py:1835-1836 | `by_id()` has a key for every result id, and a repeated id keeps its last result |
| `SchemaLaws.InverseMapDistinct` | life/notion/schema.py:1832-1833 | with no key repeated, `inverse_map(f)` keeps every result, in order |
| `SchemaLaws.MapByIdSpec` | life/notion/schema.py:1829-1830 | `map(f)` has the same keys as `by_id()`, and each id holds `f` of its last result |
| `SchemaLaws.ByNameSucceeds` | life/notion/schema.py:1838-1839 | `by_name()` succeeds if and only if every page has a name; an empty listing gives the empty dict |
| `SchemaLaws.ByNameSpec` | life/notion/schema.py:1838-1839 | in `by_name()`, each name keeps the last page that carries it |
| `SchemaLaws.ByNameDuplicateScenario` | life/notion/schema.py:1838-1839 | two pages both named "a" give a single entry, holding the later page |
| `Blocks.SerializeBlocks` | life/notion/schema.py:1014-1024 | the inner-block list serialiser keeps length and order, element by element |
| `Blocks.SerializeItem` | life/notion/schema.py:1014-1024 | each list element is an object: a block other than a file, image, video or PDF is exactly `{type: body}`; a file or image keeps two keys and a video or PDF one (laws: `BlockLaws.ItemKeyedByType`, `BlockLaws.WrappedUnlessInline`, `BlockLaws.TypeKeyOnlyForFilesAndImages`) |
| `BlockBuilder.Richify` | life/notion/schema.py:1851-1863 | `_richify` returns rich text unchanged, turns a string into exactly one simple fragment with that content and no link, and turns nothing into no fragments |
| `BlockBuilder.ChildrenOf` | life/notion/schema.py:1870-1871 | `_children` never yields null: absent children become the empty list, and given children are kept as they are |
| `BlockBuilder.RichOf` | life/notion/schema.py:1886-1893 | `rich(*args)` makes one simple fragment per argument, in order |
| `BlockBuilder.RichifyAll` | life/notion/schema.py:2123-2128 | a table row richifies every cell, keeping count and order |
| `BlockBuilder.Bookmark` | life/notion/schema.py:1895-1900 | `bookmark(url, caption)` makes a bookmark block with that url and the richified caption |
| `BlockBuilder.Breadcrumb` | life/notion/schema.py:1902-1907 | `breadcrumb()` makes a breadcrumb block with an empty body |
| `BlockBuilder.Bullet` | life/notion/schema.py:1909-1921 | `bullet(text, color, children)` makes a bulleted item with richified text, the colour and a children list that is empty when none are given (law: `BlockLaws.BuilderChildrenNeverNull`) |
| `BlockBuilder.Callout` | life/notion/schema.py:1923-1942 | `callout` keeps text and colour, uses the given icon or else the heart emoji, and never leaves children null (laws: `BlockLaws.BuilderDefaults`, `BlockLaws.BuilderChildrenNeverNull`) |
| `BlockBuilder.Code` | life/notion/schema.py:1944-1950 | `code(text, language, caption)` keeps the richified text, the language and the richified caption |
| `BlockBuilder.Column` | life/notion/schema.py:1951-1956 | `column(children)` holds exactly the given children as a list |
| `BlockBuilder.ColumnList` | life/notion/schema.py:1958-1963 | `column_list(children)` holds exactly the given children as a list |
| `BlockBuilder.Divider` | life/notion/schema.py:1965-1970 | `divider()` makes a divider block with an empty body |
| `BlockBuilder.Embed` | life/notion/schema.py:1972-1977 | `embed(url)` keeps the url |
| `BlockBuilder.Equation` | life/notion/schema.py:1979-1984 | `equation(expression)` keeps the expression |
| `BlockBuilder.File` | life/notion/schema.py:1986-1997 | `file(name, url, caption)` is an external file that keeps its name, url and richified caption (law: `BlockLaws.FileScenario`) |
| `BlockBuilder.H1` | life/notion/schema.py:1999-2011 | `h1` keeps the richified text, the colour and the toggle flag (law: `BlockLaws.BuilderDefaults`) |
| `BlockBuilder.H2` | life/notion/schema.py:2012-2024 | `h2` keeps the richified text, the colour and the toggle flag (law: `BlockLaws.BuilderDefaults`) |
| `BlockBuilder.H3` | life/notion/schema.py:2025-2037 | `h3` keeps the richified text, the colour and the toggle flag (law: `BlockLaws.BuilderDefaults`) |
| `BlockBuilder.Image` | life/notion/schema.py:2038-2045 | `image(url, caption)` is an external captioned file with that url (law: `BlockLaws.ImageAndVideoScenario`) |
| `BlockBuilder.Numbered` | life/notion/schema.py:2047-2060 | `numbered` keeps text and colour and never leaves children null (law: `BlockLaws.BuilderChildrenNeverNull`) |
| `BlockBuilder.Paragraph` | life/notion/schema.py:2061-2074 | `paragraph` keeps text and colour and never leaves children null (law: `BlockLaws.BuilderChildrenNeverNull`) |
| `BlockBuilder.Pdf` | life/notion/schema.py:2075-2082 | `pdf(url, caption)` is an external captioned file with that url |
| `BlockBuilder.Quote` | life/notion/schema.py:2084-2097 | `quote` keeps text and colour and never leaves children null (law: `BlockLaws.BuilderChildrenNeverNull`) |
| `BlockBuilder.Synced` | life/notion/schema.py:2098-2103 | `synced(children)` holds exactly the given children as a list |
| `BlockBuilder.Table` | life/notion/schema.py:2105-2121 | `table` keeps its width and header flags and holds exactly the given rows (law: `BlockLaws.BuilderChildrenNeverNull`) |
| `BlockBuilder.TableRow` | life/notion/schema.py:2123-2128 | `table_row(cells)` keeps one richified cell per list element, in order (law: `BlockLaws.TableRowCells`) |
| `BlockBuilder.Toc` | life/notion/schema.py:2130-2135 | `toc()` uses the colour "default" (law: `BlockLaws.BuilderDefaults`) |
| `BlockBuilder.Todo` | life/notion/schema.py:2137-2152 | `todo` keeps text and colour, starts unchecked and never leaves children null (laws: `BlockLaws.BuilderDefaults`, `BlockLaws.TodoScenario`) |
| `BlockBuilder.Toggle` | life/notion/schema.py:2154-2167 | `toggle` keeps text and colour and never leaves children null (law: `BlockLaws.BuilderChildrenNeverNull`) |
| `BlockBuilder.Video` | life/notion/schema.py:2168-2175 | `video(url, caption)` is an external captioned file with that url (law: `BlockLaws.ImageAndVideoScenario`) |
| `BlockBuilder.ExternalFile` | life/notion/schema.py:2177-2182 | `external_file(url)` serialises to `{"type": "external", "external": {"url": url}}` |
| `BlockBuilder.EmojiIcon` | life/notion/schema.py:2184-2189 | `emoji(e)` serialises to `{"type": "emoji", "emoji": e}` |
| `BlockLaws.ItemKeyedByType` | life/notion/schema.py:1014-1024 | every emitted element, inline or wrapped, holds the block's payload under the block's type key |
| `BlockLaws.WrappedUnlessInline` | life/notion/schema.py:1014-1024 | an element is wrapped as `{type: block}` if and only if the block is not a file, image, video or PDF |
| `BlockLaws.TypeKeyOnlyForFilesAndImages` | life/notion/schema.py:1014-1024 | an emitted element has a `"type"` key if and only if it is a file or an image: videos and PDFs are emitted inline without one |
| `BlockLaws.SerializeBlocksAppend` | life/notion/schema.py:1014-1024 | serialising concatenated block lists concatenates their JSON |
| `BlockLaws.ChildrenMember` | life/notion/schema.py:541-914 | each of the eleven container blocks (bulleted item, callout, column, column list, numbered item, paragraph, quote, synced block, table, to-do, toggle) dumps its children under `"children"` |
| `BlockLaws.RichifyIdempotent` | life/notion/schema.py:1851-1863 | richifying the output of `_richify` changes nothing |
| `BlockLaws.RichifiedString` | life/notion/schema.py:246-252 | a richified string serialises as `{"text": {"content": s, "link": null}}` and has no plain text to read back |
| `BlockLaws.RichOfAgreesWithRichify` | life/notion/schema.py:1886-1893 | `rich(s)` is `_richify(s)`, and `rich(args..., s)` extends `rich(args...)` by it |
| `BlockLaws.BuilderChildrenNeverNull` | life/notion/schema.py:1909-2166 | bullet, callout, numbered, paragraph, quote, to-do, toggle, column, column list, synced and table all emit their children as a list, empty when none are given |
| `BlockLaws.BuilderDefaults` | life/notion/schema.py:1923-2152 | a to-do starts unchecked, the table of contents uses "default", a callout without an icon gets the heart emoji, and headings keep their toggle flag and richified text |
| `BlockLaws.TableRowCells` | life/notion/schema.py:2123-2128 | `table_row(cells)` keeps one richified cell per list element, in order |
| `BlockLaws.TodoScenario` | life/notion/schema.py:2137-2152 | `todo("Buy milk")` in a block list serialises to the to-do object with text, `"default"` colour, `checked: false` and no children |
| `BlockLaws.ImageAndVideoScenario` | life/notion/schema.py:2038-2045 | an image keeps its `"type": "image"` while a video built the same way is `{"video": ...}` alone |
| `BlockLaws.FileScenario` | life/notion/schema.py:1986-1997 | a file block keeps its name and is emitted inline with `"type": "file"` |

## Left out

- The HTTP layer (`life/notion/endpoints.py`, `life/endpoints.py`), configuration loading, the command-line and terminal interfaces, and the fuzzy-picker wrappers. These are I/O around the core and are not modelled.
- `Date.delta`: it reads the system clock and does calendar arithmetic. `Date.today` is modelled as `Filters.DateToday`, with the current day as a parameter.
- Pydantic validation is not modelled. This covers URLs (including their normalisation, such as an added trailing slash), UUIDs, e-mail addresses, date and datetime formats, colour literals and number-format literals. All of them are opaque strings here.
  - Because the number formats are opaque, the stray `"yen,"` in the format literal list is not modelled either.
- Floating-point numbers: `Number` values, formula numbers and rollup numbers are integers.
- Full JSON decoding of pages, databases, blocks, users and query results through pydantic's `TypeAdapter` is library behaviour. Only the parent decoder is modelled, as a tag-dispatch function.
  - The decoded-only `Block` / `BlockList` types (with their metadata), users and `link_preview` blocks are therefore left out.
- The property descriptors that are still stubs (`CreatedBy`, `Email`, `Files`, `Formula`, `People`, `PhoneNumber`, `Rollup`, `URL`, `Verification`, ...) have no behaviour of their own. `Filters.Kind` lists only the kinds a concrete descriptor sets, so a base `Property` built with an arbitrary kind string is not modelled.
- `Filters.NotEqual` requires a non-date value. This is because the source's `NotEquals` operator does not accept dates.
- Keyword defaults are explicit parameters in the model. Examples: the `"default"` colour, the `toggleable=False` flag of headings, and the accessors' default property names. `BlockBuilder.DefaultColor` and the `Default*` constants name the source's values.
- `Blocks.InnerBlock`: a callout's icon is never null. The source's `Icon` type admits `None` (`life/notion/schema.py:389-395`), which would dump as `"icon": null`, but the callout builder always substitutes the heart emoji, and decoded blocks are not modelled.
- `Schema.Checkboxes`: it returns a map, so the order in which the page listed its properties is not kept. Page and database properties are maps, because the accessors only look keys up.
- Plain field reads are available as datatype destructors and have no members of their own. These are every `value()`, `StatusValue.name()`, `UniqueIDValue.number()` / `prefix()`, `Page.get_url()` and `QueryResult.__len__`, which is `count()`.
- Only the page accessors `checkbox`, `date`, `relation`, `status` and `title` have named members. The other accessors are `Schema.PageProperty` with their tag, and `SchemaLaws.ValueTagNamesVariant` ties each tag to its variant.

## Findings

| source | as written | input that shows it | evidently intended | confidence | as-written member | corrected member |
|---|---|---|---|---|---|---|
| life/notion/schema.py:1193-1194 | `RichTextValue.plain_text()` iterates the rich-text root model itself rather than its `.root` list. A pydantic v2 model iterates as `(field, value)` pairs, so the loop sees the single pair `("root", [...])`, and reading `.plain_text` from it raises. | a rich-text value with one text fragment whose plain text is "a" (`SchemaLaws.RichTextPlainTextCounterexample`) | join the fragments' plain texts in order, exactly as `TitleValue.plain_text()` does (line 1253) | medium; not executed | `Schema.RichTextPlainTextAsWritten` | `Schema.RichTextPlainText` |
| life/notion/filters.py:46-47 | `Property.__contains__` returns the `contains` filter, but Python's `in` operator converts whatever `__contains__` returns to a boolean. A pydantic model defines neither `__bool__` nor `__len__`, so the filter is truthy and `item in property` is always `True`; the filter itself is lost. | `"work" in MultiSelect("Tags")` and `"home" in MultiSelect("Tags")` are both `True` (`FilterLaws.InOperatorCounterexample`) | `item in property` yields the filter `property.contains(item)`; only the explicit method call reaches it | medium; not executed | `Filters.InOperator` | `Filters.HasItem` |

=== FILE: block_laws.dfy ===
/** Properties of the inner-block serialiser and of the block builder. */
module BlockLaws {
  import opened Wrappers
  import opened Json
  import Dicts
  import opened Schema
  import opened Blocks
  import B = BlockBuilder

  // ---------------------------------------------------------------------------
  // The list serialiser
  // ---------------------------------------------------------------------------

  /** Every emitted element carries the block's payload under the block's
      type key, whether it was emitted inline or wrapped. */
  lemma ItemKeyedByType(b: InnerBlock)
    ensures SerializeItem(b).JObj?
    ensures Member(SerializeItem(b), BlockType(b)) == Some(Payload(b))
  {
    if !IsInline(b) {
      assert Payload(b) == Body(b);
      assert SerializeItem(b).fields == [(BlockType(b), Payload(b))];
      Dicts.GetFirst(SerializeItem(b).fields, 0);
    } else {
      match b
      case File(f) =>
        var fs := [("type", JStr("file")), ("file", SerializeNamedFile(f))];
        assert SerializeItem(b) == JObj(fs);
        Dicts.GetFirst(fs, 1);
      case Image(f) =>
        var fs := [("type", JStr("image")), ("image", SerializeCaptionedFile(f))];
        assert SerializeItem(b) == JObj(fs);
        Dicts.GetFirst(fs, 1);
      case Video(f) =>
        assert SerializeItem(b).fields[0] == ("video", SerializeCaptionedFile(f));
      case Pdf(f) =>
        assert SerializeItem(b).fields[0] == ("pdf", SerializeCaptionedFile(f));
    }
  }

  /** Exactly the four inline blocks escape the `{type: block}` wrapper. */
  lemma WrappedUnlessInline(b: InnerBlock)
    ensures SerializeItem(b) == JObj([(BlockType(b), Body(b))]) <==> !IsInline(b)
  {
    if IsInline(b) {
      var j := SerializeItem(b);
      if b.Video? || b.Pdf? {
        var x := SerializeCaptionedFile(if b.Video? then b.video else b.pdf);
        assert x.fields[0].0 == "type";
        assert j == JObj([(BlockType(b), x)]);
        assert x != Body(b) by {
          assert Body(b).fields[0].0 == BlockType(b);
        }
      } else {
        assert |j.fields| == 2;
      }
    }
  }

  /** The emitted element has a `"type"` key only for files and images: videos
      and PDFs are emitted inline but without their discriminator. */
  lemma TypeKeyOnlyForFilesAndImages(b: InnerBlock)
    ensures Member(SerializeItem(b), "type").Some? <==> b.File? || b.Image?
    ensures b.File? || b.Image? ==> Member(SerializeItem(b), "type") == Some(JStr(BlockType(b)))
  {
  }

  /** Serialising a concatenation concatenates the serialised lists. */
  lemma {:induction false} SerializeBlocksAppend(a: seq<InnerBlock>, b: seq<InnerBlock>)
    ensures SerializeBlocks(a + b) == SerializeBlocks(a) + SerializeBlocks(b)
  {
    if a == [] {
      assert a + b == b;
    } else {
      assert (a + b)[0] == a[0];
      assert (a + b)[1..] == a[1..] + b;
      SerializeBlocksAppend(a[1..], b);
    }
  }

  // ---------------------------------------------------------------------------
  // The normalising helpers
  // ---------------------------------------------------------------------------

  /** `_richify` is idempotent: richifying its own output changes nothing. */
  lemma RichifyIdempotent(t: Option<B.Text>)
    ensures B.Richify(Some(B.Rich(B.Richify(t)))) == B.Richify(t)
  {
  }

  /** A string becomes a single fragment whose JSON is its text object, link
      included as null; the same fragment has no plain text to read back. */
  lemma RichifiedString(s: string)
    ensures SerializeRichText(B.Richify(Some(B.Str(s)))) ==
              [JObj([("text", JObj([("content", JStr(s)), ("link", JNull)]))])]
    ensures PlainText(B.Richify(Some(B.Str(s)))) == Err(NoPlainTextAttribute(0))
  {
  }

  /** `rich(a, b, ...)` is the richified arguments side by side. */
  lemma RichOfAgreesWithRichify(args: seq<string>, s: string)
    ensures B.RichOf([s]) == B.Richify(Some(B.Str(s)))
    ensures B.RichOf(args + [s]) == B.RichOf(args) + B.Richify(Some(B.Str(s)))
  {
    var l, r := B.RichOf(args + [s]), B.RichOf(args) + B.Richify(Some(B.Str(s)));
    forall i | 0 <= i < |l| ensures l[i] == r[i] {
      if i < |args| { assert (args + [s])[i] == args[i]; }
    }
  }

  // ---------------------------------------------------------------------------
  // Builder outputs
  // ---------------------------------------------------------------------------

  /** The children the serialiser sees for a builder's children argument:
      always a list, never null. */
  function ChildrenJson(children: Option<seq<InnerBlock>>): J {
    JArr(SerializeBlocks(children.GetOr([])))
  }

  /** Which blocks carry children. */
  predicate HasChildren(b: InnerBlock) {
    b.BulletItem? || b.Callout? || b.Column? || b.ColumnList? || b.NumberedItem? ||
    b.Paragraph? || b.Quote? || b.Synced? || b.Table? || b.TodoItem? || b.Toggle?
  }

  /** A container block's model dumps its children under `"children"`. */
  lemma ChildrenMember(b: InnerBlock)
    requires HasChildren(b)
    ensures Member(Body(b), "children") == Some(SerializeChildren(b.children))
  {
    // The position of `"children"` among the block's fields.
    var n := if b.Column? || b.ColumnList? then 0
             else if b.Synced? then 1
             else if b.Callout? || b.Table? || b.TodoItem? then 3
             else 2;
    Dicts.GetFirst(Body(b).fields, n);
  }

  /** Every builder with children emits them as a list, empty when absent. */
  lemma BuilderChildrenNeverNull(t: B.Text, color: string, icon: Option<Icon>,
                                 children: Option<seq<InnerBlock>>, nested: seq<InnerBlock>,
                                 width: int, columnHeader: bool, rowHeader: bool)
    ensures Member(Body(B.Bullet(t, color, children)), "children") == Some(ChildrenJson(children))
    ensures Member(Body(B.Callout(t, color, icon, children)), "children") == Some(ChildrenJson(children))
    ensures Member(Body(B.Numbered(t, color, children)), "children") == Some(ChildrenJson(children))
    ensures Member(Body(B.Paragraph(t, color, children)), "children") == Some(ChildrenJson(children))
    ensures Member(Body(B.Quote(t, color, children)), "children") == Some(ChildrenJson(children))
    ensures Member(Body(B.Todo(t, color, children)), "children") == Some(ChildrenJson(children))
    ensures Member(Body(B.Toggle(t, color, children)), "children") == Some(ChildrenJson(children))
    ensures Member(Body(B.Column(nested)), "children") == Some(ChildrenJson(Some(nested)))
    ensures Member(Body(B.ColumnList(nested)), "children") == Some(ChildrenJson(Some(nested)))
    ensures Member(Body(B.Synced(nested)), "children") == Some(ChildrenJson(Some(nested)))
    ensures Member(Body(B.Table(width, columnHeader, rowHeader, nested)), "children") == Some(ChildrenJson(Some(nested)))
  {
    ChildrenMember(B.Bullet(t, color, children));
    ChildrenMember(B.Callout(t, color, icon, children));
    ChildrenMember(B.Numbered(t, color, children));
    ChildrenMember(B.Paragraph(t, color, children));
    ChildrenMember(B.Quote(t, color, children));
    ChildrenMember(B.Todo(t, color, children));
    ChildrenMember(B.Toggle(t, color, children));
    ChildrenMember(B.Column(nested));
    ChildrenMember(B.ColumnList(nested));
    ChildrenMember(B.Synced(nested));
    ChildrenMember(B.Table(width, columnHeader, rowHeader, nested));
  }

  /** The defaults the builders fill in. */
  lemma BuilderDefaults(t: B.Text, color: string, icon: Icon, children: Option<seq<InnerBlock>>, toggleable: bool)
    ensures B.Todo(t, color, children).checked == Some(false)
    ensures B.Toc().color == "default"
    ensures B.Callout(t, color, None, children).icon == Emoji("\U{2764}\U{FE0F}")
    ensures B.Callout(t, color, Some(icon), children).icon == icon
    ensures B.H1(t, color, toggleable).isToggleable == toggleable && B.H1(t, color, toggleable).richText == B.Richify(Some(t))
    ensures B.H2(t, color, toggleable).isToggleable == toggleable && B.H2(t, color, toggleable).richText == B.Richify(Some(t))
    ensures B.H3(t, color, toggleable).isToggleable == toggleable && B.H3(t, color, toggleable).richText == B.Richify(Some(t))
  {
  }

  /** A table row keeps one richified cell per argument, in order. */
  lemma TableRowCells(cells: seq<B.Text>)
    ensures |B.TableRow(cells).cells| == |cells|
    ensures forall i :: 0 <= i < |cells| ==> B.TableRow(cells).cells[i] == B.Richify(Some(cells[i]))
  {
  }

  /** `todo("Buy milk")` in a block list. */
  lemma TodoScenario()
    ensures SerializeBlocks([B.Todo(B.Str("Buy milk"), B.DefaultColor, None)]) ==
      [JObj([("to_do", JObj([
        ("rich_text", JArr([JObj([("text", JObj([("content", JStr("Buy milk")), ("link", JNull)]))])])),
        ("color", JStr("default")),
        ("checked", JBool(false)),
        ("children", JArr([]))]))])]
  {
    var b := B.Todo(B.Str("Buy milk"), B.DefaultColor, None);
    var frag := JObj([("text", JObj([("content", JStr("Buy milk")), ("link", JNull)]))]);
    RichifiedString("Buy milk");
    assert SerializeChildren(b.children) == JArr([]);
    assert SerializeItem(b) == JObj([("to_do", Body(b))]);
    assert SerializeBlocks([b]) == [SerializeItem(b)];
  }

  /** An image and a video built the same way serialise differently: the
      image keeps its `"type"`, the video does not. */
  lemma ImageAndVideoScenario(url: string)
    ensures SerializeItem(B.Image(url, None)) ==
      JObj([("type", JStr("image")),
            ("image", JObj([("type", JStr("external")), ("external", JObj([("url", JStr(url))])),
                            ("caption", JArr([]))]))])
    ensures SerializeItem(B.Video(url, None)) ==
      JObj([("video", JObj([("type", JStr("external")), ("external", JObj([("url", JStr(url))])),
                            ("caption", JArr([]))]))])
  {
  }

  /** A file block keeps its name and sits inline. */
  lemma FileScenario(name: string, url: string)
    ensures SerializeItem(B.File(name, url, None)) ==
      JObj([("type", JStr("file")),
            ("file", JObj([("type", JStr("external")), ("name", JStr(name)), ("caption", JArr([])),
                           ("external", JObj([("url", JStr(url))]))]))])
  {
  }
}

=== FILE: blocks.dfy ===
/** Inner blocks: the block content a client sends when it creates blocks,
    and how a list of them serialises. */
module Blocks {
  import opened Wrappers
  import opened Json
  import opened Schema

  /** A file with an optional name and a caption. */
  datatype NamedFile =
    | ExternalNamedFile(name: Option<string>, caption: RichText, url: string)
    | InternalNamedFile(name: Option<string>, caption: RichText, url: string, expiryTime: string)

  /** A file with a caption. */
  datatype CaptionedFile =
    | ExternalCaptionedFile(url: string, caption: RichText)
    | InternalCaptionedFile(url: string, expiryTime: string, caption: RichText)

  /** The nested blocks of a container block; absent serialises as null. */
  datatype Children = NoChildren | ChildList(blocks: seq<InnerBlock>)

  datatype InnerBlock =
    | Bookmark(caption: RichText, url: string)
    | Breadcrumb
    | BulletItem(richText: RichText, color: string, children: Children)
    | Callout(richText: RichText, color: string, icon: Icon, children: Children)
    | Code(caption: RichText, richText: RichText, language: string)
    | Column(children: Children)
    | ColumnList(children: Children)
    | Divider
    | Embed(url: string)
    | Equation(expression: string)
    | File(file: NamedFile)
    | Heading1(richText: RichText, color: string, isToggleable: bool)
    | Heading2(richText: RichText, color: string, isToggleable: bool)
    | Heading3(richText: RichText, color: string, isToggleable: bool)
    | Image(image: CaptionedFile)
    | NumberedItem(richText: RichText, color: string, children: Children)
    | Paragraph(richText: RichText, color: string, children: Children)
    | Pdf(pdf: CaptionedFile)
    | Quote(richText: RichText, color: string, children: Children)
    | Synced(children: Children)
    | Table(tableWidth: int, hasColumnHeader: bool, hasRowHeader: bool, children: Children)
    | TableRow(cells: seq<RichText>)
    | Toc(color: string)
    | TodoItem(richText: RichText, color: string, checked: Option<bool>, children: Children)
    | Toggle(richText: RichText, color: string, children: Children)
    | Video(video: CaptionedFile)

  /** The discriminator of an inner block. */
  function BlockType(b: InnerBlock): string {
    match b
    case Bookmark(_, _) => "bookmark"
    case Breadcrumb => "breadcrumb"
    case BulletItem(_, _, _) => "bulleted_list_item"
    case Callout(_, _, _, _) => "callout"
    case Code(_, _, _) => "code"
    case Column(_) => "column"
    case ColumnList(_) => "column_list"
    case Divider => "divider"
    case Embed(_) => "embed"
    case Equation(_) => "equation"
    case File(_) => "file"
    case Heading1(_, _, _) => "heading_1"
    case Heading2(_, _, _) => "heading_2"
    case Heading3(_, _, _) => "heading_3"
    case Image(_) => "image"
    case NumberedItem(_, _, _) => "numbered_list_item"
    case Paragraph(_, _, _) => "paragraph"
    case Pdf(_) => "pdf"
    case Quote(_, _, _) => "quote"
    case Synced(_) => "synced_block"
    case Table(_, _, _, _) => "table"
    case TableRow(_) => "table_row"
    case Toc(_) => "table_of_contents"
    case TodoItem(_, _, _, _) => "to_do"
    case Toggle(_, _, _) => "toggle"
    case Video(_) => "video"
  }

  /** The four blocks whose model already carries its type key and which the
      list serialiser emits as they are. */
  predicate IsInline(b: InnerBlock) {
    b.File? || b.Image? || b.Video? || b.Pdf?
  }

  function RichTextJson(rt: RichText): J {
    JArr(SerializeRichText(rt))
  }

  function SerializeNamedFile(f: NamedFile): J {
    match f
    case ExternalNamedFile(n, c, u) =>
      JObj([("type", JStr("external")), ("name", OptStr(n)), ("caption", RichTextJson(c)),
            ("external", JObj([("url", JStr(u))]))])
    case InternalNamedFile(n, c, u, t) =>
      JObj([("type", JStr("file")), ("name", OptStr(n)), ("caption", RichTextJson(c)),
            ("file", JObj([("url", JStr(u)), ("expiry_time", JStr(t))]))])
  }

  function SerializeCaptionedFile(f: CaptionedFile): J {
    match f
    case ExternalCaptionedFile(u, c) =>
      JObj([("type", JStr("external")), ("external", JObj([("url", JStr(u))])), ("caption", RichTextJson(c))])
    case InternalCaptionedFile(u, t, c) =>
      JObj([("type", JStr("file")), ("file", JObj([("url", JStr(u)), ("expiry_time", JStr(t))])),
            ("caption", RichTextJson(c))])
  }

  /** The payload a block carries under its type key. */
  function Payload(b: InnerBlock): J
    decreases b, 1
  {
    match b
    case File(f) => SerializeNamedFile(f)
    case Image(f) => SerializeCaptionedFile(f)
    case Pdf(f) => SerializeCaptionedFile(f)
    case Video(f) => SerializeCaptionedFile(f)
    case _ => Body(b)
  }

  /** The dump of a block's own model. The type field is excluded from every
      block except `File` and `Image`, which keep it. */
  function Body(b: InnerBlock): J
    decreases b, 0
  {
    match b
    case Bookmark(c, u) => JObj([("caption", RichTextJson(c)), ("url", JStr(u))])
    case Breadcrumb => JObj([])
    case BulletItem(rt, col, ch) =>
      JObj([("rich_text", RichTextJson(rt)), ("color", JStr(col)), ("children", SerializeChildren(ch))])
    case Callout(rt, col, i, ch) =>
      JObj([("rich_text", RichTextJson(rt)), ("color", JStr(col)), ("icon", SerializeIcon(i)),
            ("children", SerializeChildren(ch))])
    case Code(c, rt, l) =>
      JObj([("caption", RichTextJson(c)), ("rich_text", RichTextJson(rt)), ("language", JStr(l))])
    case Column(ch) => JObj([("children", SerializeChildren(ch))])
    case ColumnList(ch) => JObj([("children", SerializeChildren(ch))])
    case Divider => JObj([])
    case Embed(u) => JObj([("url", JStr(u))])
    case Equation(e) => JObj([("expression", JStr(e))])
    case File(f) => JObj([("type", JStr("file")), ("file", SerializeNamedFile(f))])
    case Heading1(rt, col, t) =>
      JObj([("rich_text", RichTextJson(rt)), ("color", JStr(col)), ("is_toggleable", JBool(t))])
    case Heading2(rt, col, t) =>
      JObj([("rich_text", RichTextJson(rt)), ("color", JStr(col)), ("is_toggleable", JBool(t))])
    case Heading3(rt, col, t) =>
      JObj([("rich_text", RichTextJson(rt)), ("color", JStr(col)), ("is_toggleable", JBool(t))])
    case Image(f) => JObj([("type", JStr("image")), ("image", SerializeCaptionedFile(f))])
    case NumberedItem(rt, col, ch) =>
      JObj([("rich_text", RichTextJson(rt)), ("color", JStr(col)), ("children", SerializeChildren(ch))])
    case Paragraph(rt, col, ch) =>
      JObj([("rich_text", RichTextJson(rt)), ("color", JStr(col)), ("children", SerializeChildren(ch))])
    case Pdf(f) => JObj([("pdf", SerializeCaptionedFile(f))])
    case Quote(rt, col, ch) =>
      JObj([("rich_text", RichTextJson(rt)), ("color", JStr(col)), ("children", SerializeChildren(ch))])
    case Synced(ch) => JObj([("synced_from", JNull), ("children", SerializeChildren(ch))])
    case Table(w, colHeader, rowHeader, ch) =>
      JObj([("table_width", JInt(w)), ("has_column_header", JBool(colHeader)),
            ("has_row_header", JBool(rowHeader)), ("children", SerializeChildren(ch))])
    case TableRow(cells) => JObj([("cells", JArr(CellsJson(cells)))])
    case Toc(col) => JObj([("color", JStr(col))])
    case TodoItem(rt, col, chk, ch) =>
      JObj([("rich_text", RichTextJson(rt)), ("color", JStr(col)),
            ("checked", match chk case Some(x) => JBool(x) case None => JNull),
            ("children", SerializeChildren(ch))])
    case Toggle(rt, col, ch) =>
      JObj([("rich_text", RichTextJson(rt)), ("color", JStr(col)), ("children", SerializeChildren(ch))])
    case Video(f) => JObj([("video", SerializeCaptionedFile(f))])
  }

  function CellsJson(cells: seq<RichText>): (r: seq<J>)
    ensures |r| == |cells|
    ensures forall i :: 0 <= i < |cells| ==> r[i] == RichTextJson(cells[i])
  {
    if cells == [] then [] else [RichTextJson(cells[0])] + CellsJson(cells[1..])
  }

  function SerializeChildren(c: Children): J
    decreases c, 2
  {
    match c
    case NoChildren => JNull
    case ChildList(bs) => JArr(SerializeBlocks(bs))
  }

  /** One element of a serialised list: the four inline blocks as they
      are, every other block wrapped under its type key. */
  function SerializeItem(b: InnerBlock): (r: J)
    decreases b, 2
    ensures r.JObj?
    ensures !IsInline(b) ==> r.fields == [(BlockType(b), Body(b))]
    ensures IsInline(b) ==> |r.fields| == if b.File? || b.Image? then 2 else 1
  {
    if IsInline(b) then Body(b) else JObj([(BlockType(b), Body(b))])
  }

  /** The list serialiser, element by element and in order. */
  function SerializeBlocks(bs: seq<InnerBlock>): (r: seq<J>)
    decreases bs, 3
    ensures |r| == |bs|
    ensures forall i :: 0 <= i < |bs| ==> r[i] == SerializeItem(bs[i])
  {
    if bs == [] then [] else [SerializeItem(bs[0])] + SerializeBlocks(bs[1..])
  }
}

/** The factories that build inner blocks, icons and rich text, with the
    helpers that normalise their optional arguments. */
module BlockBuilder {
  import opened Wrappers
  import opened Schema
  import Json
  import Blocks

  /** An argument that is either plain text or rich text already. */
  datatype Text = Str(s: string) | Rich(rt: RichText)

  const DefaultColor: string := "default"

  /** The icon a callout gets when none is given: a red heart, U+2764 with
      the emoji presentation selector U+FE0F. */
  const DefaultIcon: Icon := Emoji("\U{2764}\U{FE0F}")

  /** The one-fragment rich text the builder makes from a string. */
  function SimpleFragment(s: string): RichTextFragment {
    SimpleText(TextObject(s, None))
  }

  /** `_richify`: rich text stays as it is, a string becomes one simple
      fragment, and nothing becomes no fragments. */
  function Richify(t: Option<Text>): (r: RichText)
    ensures t.None? ==> r == []
    ensures t.Some? && t.value.Rich? ==> r == t.value.rt
    ensures t.Some? && t.value.Str? ==> |r| == 1 && r[0].SimpleText?
    ensures t.Some? && t.value.Str? ==> r[0].text.content == t.value.s && r[0].text.link.None?
  {
    match t
    case None => []
    case Some(Rich(rt)) => rt
    case Some(Str(s)) => [SimpleFragment(s)]
  }

  /** `_children`: absent children become an empty list, never null. */
  function ChildrenOf(blocks: Option<seq<Blocks.InnerBlock>>): (r: Blocks.Children)
    ensures r.ChildList?
    ensures blocks.None? ==> r.blocks == []
    ensures blocks.Some? ==> r.blocks == blocks.value
  {
    Blocks.ChildList(blocks.GetOr([]))
  }

  /** `rich(*args)`: one simple fragment per argument, in order. */
  function RichOf(args: seq<string>): (r: RichText)
    ensures |r| == |args|
    ensures forall i :: 0 <= i < |args| ==> r[i] == SimpleFragment(args[i])
  {
    if args == [] then [] else [SimpleFragment(args[0])] + RichOf(args[1..])
  }

  function Bookmark(url: string, caption: Option<Text>): (r: Blocks.InnerBlock)
    ensures Blocks.BlockType(r) == "bookmark"
    ensures r.url == url && r.caption == Richify(caption)
  {
    Blocks.Bookmark(Richify(caption), url)
  }

  function Breadcrumb(): (r: Blocks.InnerBlock)
    ensures Blocks.BlockType(r) == "breadcrumb"
    ensures Blocks.Body(r) == Json.JObj([])
  {
    Blocks.Breadcrumb
  }

  function Bullet(text: Text, color: string, children: Option<seq<Blocks.InnerBlock>>): (r: Blocks.InnerBlock)
    ensures Blocks.BlockType(r) == "bulleted_list_item"
    ensures r.richText == Richify(Some(text)) && r.color == color
    ensures r.children.ChildList?
    ensures children.None? ==> r.children.blocks == []
    ensures children.Some? ==> r.children.blocks == children.value
  {
    Blocks.BulletItem(Richify(Some(text)), color, ChildrenOf(children))
  }

  function Callout(text: Text, color: string, icon: Option<Icon>, children: Option<seq<Blocks.InnerBlock>>): (r: Blocks.InnerBlock)
    ensures Blocks.BlockType(r) == "callout"
    ensures r.richText == Richify(Some(text)) && r.color == color
    ensures icon.None? ==> r.icon == DefaultIcon
    ensures icon.Some? ==> r.icon == icon.value
    ensures r.children.ChildList?
    ensures children.None? ==> r.children.blocks == []
    ensures children.Some? ==> r.children.blocks == children.value
  {
    Blocks.Callout(Richify(Some(text)), color, icon.GetOr(DefaultIcon), ChildrenOf(children))
  }

  function Code(text: Text, language: string, caption: Option<Text>): (r: Blocks.InnerBlock)
    ensures Blocks.BlockType(r) == "code"
    ensures r.richText == Richify(Some(text)) && r.language == language
    ensures r.caption == Richify(caption)
  {
    Blocks.Code(Richify(caption), Richify(Some(text)), language)
  }

  function Column(children: seq<Blocks.InnerBlock>): (r: Blocks.InnerBlock)
    ensures Blocks.BlockType(r) == "column"
    ensures r.children.ChildList? && r.children.blocks == children
  {
    Blocks.Column(ChildrenOf(Some(children)))
  }

  function ColumnList(children: seq<Blocks.InnerBlock>): (r: Blocks.InnerBlock)
    ensures Blocks.BlockType(r) == "column_list"
    ensures r.children.ChildList? && r.children.blocks == children
  {
    Blocks.ColumnList(ChildrenOf(Some(children)))
  }

  function Divider(): (r: Blocks.InnerBlock)
    ensures Blocks.BlockType(r) == "divider"
    ensures Blocks.Body(r) == Json.JObj([])
  {
    Blocks.Divider
  }

  function Embed(url: string): (r: Blocks.InnerBlock)
    ensures Blocks.BlockType(r) == "embed"
    ensures r.url == url
  {
    Blocks.Embed(url)
  }

  function Equation(expression: string): (r: Blocks.InnerBlock)
    ensures Blocks.BlockType(r) == "equation"
    ensures r.expression == expression
  {
    Blocks.Equation(expression)
  }

  /** `file(name, url=..., caption=...)`: an external file that keeps its name. */
  function File(name: string, url: string, caption: Option<Text>): (r: Blocks.InnerBlock)
    ensures Blocks.BlockType(r) == "file"
    ensures r.file.ExternalNamedFile? && r.file.name == Some(name) && r.file.url == url
    ensures r.file.caption == Richify(caption)
  {
    Blocks.File(Blocks.ExternalNamedFile(Some(name), Richify(caption), url))
  }

  function H1(text: Text, color: string, toggleable: bool): (r: Blocks.InnerBlock)
    ensures Blocks.BlockType(r) == "heading_1"
    ensures r.richText == Richify(Some(text)) && r.color == color
    ensures r.isToggleable == toggleable
  {
    Blocks.Heading1(Richify(Some(text)), color, toggleable)
  }

  function H2(text: Text, color: string, toggleable: bool): (r: Blocks.InnerBlock)
    ensures Blocks.BlockType(r) == "heading_2"
    ensures r.richText == Richify(Some(text)) && r.color == color
    ensures r.isToggleable == toggleable
  {
    Blocks.Heading2(Richify(Some(text)), color, toggleable)
  }

  function H3(text: Text, color: string, toggleable: bool): (r: Blocks.InnerBlock)
    ensures Blocks.BlockType(r) == "heading_3"
    ensures r.richText == Richify(Some(text)) && r.color == color
    ensures r.isToggleable == toggleable
  {
    Blocks.Heading3(Richify(Some(text)), color, toggleable)
  }

  function Image(url: string, caption: Option<Text>): (r: Blocks.InnerBlock)
    ensures Blocks.BlockType(r) == "image"
    ensures r.image.ExternalCaptionedFile? && r.image.url == url && r.image.caption == Richify(caption)
  {
    Blocks.Image(Blocks.ExternalCaptionedFile(url, Richify(caption)))
  }

  function Numbered(text: Text, color: string, children: Option<seq<Blocks.InnerBlock>>): (r: Blocks.InnerBlock)
    ensures Blocks.BlockType(r) == "numbered_list_item"
    ensures r.richText == Richify(Some(text)) && r.color == color
    ensures r.children.ChildList?
    ensures children.None? ==> r.children.blocks == []
    ensures children.Some? ==> r.children.blocks == children.value
  {
    Blocks.NumberedItem(Richify(Some(text)), color, ChildrenOf(children))
  }

  function Paragraph(text: Text, color: string, children: Option<seq<Blocks.InnerBlock>>): (r: Blocks.InnerBlock)
    ensures Blocks.BlockType(r) == "paragraph"
    ensures r.richText == Richify(Some(text)) && r.color == color
    ensures r.children.ChildList?
    ensures children.None? ==> r.children.blocks == []
    ensures children.Some? ==> r.children.blocks == children.value
  {
    Blocks.Paragraph(Richify(Some(text)), color, ChildrenOf(children))
  }

  function Pdf(url: string, caption: Option<Text>): (r: Blocks.InnerBlock)
    ensures Blocks.BlockType(r) == "pdf"
    ensures r.pdf.ExternalCaptionedFile? && r.pdf.url == url && r.pdf.caption == Richify(caption)
  {
    Blocks.Pdf(Blocks.ExternalCaptionedFile(url, Richify(caption)))
  }

  function Quote(text: Text, color: string, children: Option<seq<Blocks.InnerBlock>>): (r: Blocks.InnerBlock)
    ensures Blocks.BlockType(r) == "quote"
    ensures r.richText == Richify(Some(text)) && r.color == color
    ensures r.children.ChildList?
    ensures children.None? ==> r.children.blocks == []
    ensures children.Some? ==> r.children.blocks == children.value
  {
    Blocks.Quote(Richify(Some(text)), color, ChildrenOf(children))
  }

  function Synced(children: seq<Blocks.InnerBlock>): (r: Blocks.InnerBlock)
    ensures Blocks.BlockType(r) == "synced_block"
    ensures r.children.ChildList? && r.children.blocks == children
  {
    Blocks.Synced(ChildrenOf(Some(children)))
  }

  function Table(width: int, columnHeader: bool, rowHeader: bool, children: seq<Blocks.InnerBlock>): (r: Blocks.InnerBlock)
    ensures Blocks.BlockType(r) == "table"
    ensures r.tableWidth == width && r.hasColumnHeader == columnHeader && r.hasRowHeader == rowHeader
    ensures r.children.ChildList? && r.children.blocks == children
  {
    Blocks.Table(width, columnHeader, rowHeader, ChildrenOf(Some(children)))
  }

  /** Every cell richified, in order. */
  function RichifyAll(cells: seq<Text>): (r: seq<RichText>)
    ensures |r| == |cells|
    ensures forall i :: 0 <= i < |cells| ==> r[i] == Richify(Some(cells[i]))
  {
    if cells == [] then [] else [Richify(Some(cells[0]))] + RichifyAll(cells[1..])
  }

  function TableRow(cells: seq<Text>): (r: Blocks.InnerBlock)
    ensures Blocks.BlockType(r) == "table_row"
    ensures |r.cells| == |cells|
    ensures forall i :: 0 <= i < |cells| ==> r.cells[i] == Richify(Some(cells[i]))
  {
    Blocks.TableRow(RichifyAll(cells))
  }

  function Toc(): (r: Blocks.InnerBlock)
    ensures Blocks.BlockType(r) == "table_of_contents"
    ensures r.color == DefaultColor
  {
    Blocks.Toc(DefaultColor)
  }

  /** A to-do item always starts unchecked. */
  function Todo(text: Text, color: string, children: Option<seq<Blocks.InnerBlock>>): (r: Blocks.InnerBlock)
    ensures Blocks.BlockType(r) == "to_do"
    ensures r.richText == Richify(Some(text)) && r.color == color
    ensures r.checked == Some(false)
    ensures r.children.ChildList?
    ensures children.None? ==> r.children.blocks == []
    ensures children.Some? ==> r.children.blocks == children.value
  {
    Blocks.TodoItem(Richify(Some(text)), color, Some(false), ChildrenOf(children))
  }

  function Toggle(text: Text, color: string, children: Option<seq<Blocks.InnerBlock>>): (r: Blocks.InnerBlock)
    ensures Blocks.BlockType(r) == "toggle"
    ensures r.richText == Richify(Some(text)) && r.color == color
    ensures r.children.ChildList?
    ensures children.None? ==> r.children.blocks == []
    ensures children.Some? ==> r.children.blocks == children.value
  {
    Blocks.Toggle(Richify(Some(text)), color, ChildrenOf(children))
  }

  function Video(url: string, caption: Option<Text>): (r: Blocks.InnerBlock)
    ensures Blocks.BlockType(r) == "video"
    ensures r.video.ExternalCaptionedFile? && r.video.url == url && r.video.caption == Richify(caption)
  {
    Blocks.Video(Blocks.ExternalCaptionedFile(url, Richify(caption)))
  }

  function ExternalFile(url: string): (r: UnnamedFile)
    ensures SerializeUnnamedFile(r) == Json.JObj([("type", Json.JStr("external")), ("external", Json.JObj([("url", Json.JStr(url))]))])
  {
    Schema.ExternalFile(url)
  }

  function EmojiIcon(emoji: string): (r: Icon)
    ensures SerializeIcon(r) == Json.JObj([("type", Json.JStr("emoji")), ("emoji", Json.JStr(emoji))])
  {
    Emoji(emoji)
  }
}

=== FILE: dicts.dfy ===
/** Insertion-ordered dictionaries: the model of a Python `dict`.

    A dictionary is the sequence of its entries in insertion order. Writing a
    key that is already present replaces its value where it stands; writing a
    new key appends it. Both `{**data, **{k: v}}` and `data[k] = v` are `Put`,
    and a dict comprehension `{k: v for ...}` is `FromPairs`. */
module Dicts {
  import opened Wrappers

  type Dict<K, V> = seq<(K, V)>

  /** The keys present in `d`. */
  function Keys<K, V>(d: Dict<K, V>): set<K> {
    if d == [] then {} else {d[0].0} + Keys(d[1..])
  }

  /** A key is present exactly when some entry carries it. */
  lemma {:induction false} KeysIndex<K, V>(d: Dict<K, V>, k: K)
    ensures k in Keys(d) <==> exists i :: 0 <= i < |d| && d[i].0 == k
  {
    if d != [] {
      KeysIndex(d[1..], k);
      if exists i :: 0 <= i < |d| && d[i].0 == k {
        var i :| 0 <= i < |d| && d[i].0 == k;
        if i > 0 {
          assert d[1..][i - 1] == d[i];
        }
      }
      if exists i :: 0 <= i < |d[1..]| && d[1..][i].0 == k {
        var i :| 0 <= i < |d[1..]| && d[1..][i].0 == k;
        assert d[i + 1] == d[1..][i];
      }
    }
  }

  lemma {:induction false} KeysAppend<K, V>(d: Dict<K, V>, e: Dict<K, V>)
    ensures Keys(d + e) == Keys(d) + Keys(e)
  {
    if d != [] {
      assert (d + e)[1..] == d[1..] + e;
      KeysAppend(d[1..], e);
    } else {
      assert d + e == e;
    }
  }

  /** No key occurs twice: every Python dict satisfies this. */
  predicate DistinctKeys<K(==), V>(d: Dict<K, V>) {
    forall i, j :: 0 <= i < j < |d| ==> d[i].0 != d[j].0
  }

  /** `d.get(k)`: the value stored under `k`, if any. */
  function Get<K(==), V>(d: Dict<K, V>, k: K): (r: Option<V>)
    ensures r.Some? <==> k in Keys(d)
  {
    if d == [] then None
    else if d[0].0 == k then Some(d[0].1)
    else Get(d[1..], k)
  }

  /** In a dictionary without repeated keys the entry at position `i` is the
      one `Get` finds. */
  lemma {:induction false} GetAt<K, V>(d: Dict<K, V>, i: int)
    requires DistinctKeys(d)
    requires 0 <= i < |d|
    ensures Get(d, d[i].0) == Some(d[i].1)
  {
    if i > 0 {
      assert d[1..][i - 1] == d[i];
      GetAt(d[1..], i - 1);
    }
  }

  /** `Get` finds the first entry carrying the key. */
  lemma {:induction false} GetFirst<K, V>(d: Dict<K, V>, i: int)
    requires 0 <= i < |d|
    requires forall j :: 0 <= j < i ==> d[j].0 != d[i].0
    ensures Get(d, d[i].0) == Some(d[i].1)
  {
    if i > 0 {
      assert d[1..][i - 1] == d[i];
      assert forall j :: 0 <= j < i - 1 ==> d[1..][j] == d[j + 1];
      GetFirst(d[1..], i - 1);
    }
  }

  /** What `Get` finds is the value of an entry of `d`. */
  lemma {:induction false} GetIndex<K, V>(d: Dict<K, V>, k: K) returns (i: int)
    requires k in Keys(d)
    ensures 0 <= i < |d| && d[i] == (k, Get(d, k).value)
  {
    if d[0].0 == k {
      i := 0;
    } else {
      var j := GetIndex(d[1..], k);
      i := j + 1;
    }
  }

  /** `{**d, **{k: v}}`: replace the value of `k` in place, or append `k`. */
  function Put<K(==), V>(d: Dict<K, V>, k: K, v: V): (r: Dict<K, V>)
    ensures Keys(r) == Keys(d) + {k}
    ensures |r| == if k in Keys(d) then |d| else |d| + 1
    ensures forall i :: 0 <= i < |d| ==> r[i].0 == d[i].0
  {
    if d == [] then [(k, v)]
    else if d[0].0 == k then [(k, v)] + d[1..]
    else [d[0]] + Put(d[1..], k, v)
  }

  /** After `Put` the key holds the new value and every other key is as it was. */
  lemma {:induction false} PutGet<K, V>(d: Dict<K, V>, k: K, v: V, k': K)
    ensures Get(Put(d, k, v), k') == if k' == k then Some(v) else Get(d, k')
  {
    if d != [] && d[0].0 != k {
      PutGet(d[1..], k, v, k');
    }
  }

  /** `Put` keeps keys distinct. */
  lemma {:induction false} PutDistinct<K, V>(d: Dict<K, V>, k: K, v: V)
    requires DistinctKeys(d)
    ensures DistinctKeys(Put(d, k, v))
  {
    if d != [] && d[0].0 != k {
      var t := Put(d[1..], k, v);
      assert DistinctKeys(d[1..]) by {
        forall i, j | 0 <= i < j < |d[1..]| ensures d[1..][i].0 != d[1..][j].0 {
          assert d[1..][i] == d[i + 1] && d[1..][j] == d[j + 1];
        }
      }
      PutDistinct(d[1..], k, v);
      var r := [d[0]] + t;
      forall i, j | 0 <= i < j < |r| ensures r[i].0 != r[j].0 {
        if i == 0 {
          KeysIndex(t, r[j].0);
          assert r[j] == t[j - 1];
          assert r[j].0 in Keys(d[1..]) + {k};
          if r[j].0 in Keys(d[1..]) {
            KeysIndex(d[1..], r[j].0);
            var m :| 0 <= m < |d[1..]| && d[1..][m].0 == r[j].0;
            assert d[m + 1] == d[1..][m];
          }
        } else {
          assert r[i] == t[i - 1] && r[j] == t[j - 1];
        }
      }
    } else if d != [] {
      var r := [(k, v)] + d[1..];
      forall i, j | 0 <= i < j < |r| ensures r[i].0 != r[j].0 {
        assert r[j] == d[j];
        if i > 0 {
          assert r[i] == d[i];
        }
      }
    }
  }

  /** A new key is appended at the end. */
  lemma {:induction false} PutAbsent<K, V>(d: Dict<K, V>, k: K, v: V)
    requires k !in Keys(d)
    ensures Put(d, k, v) == d + [(k, v)]
  {
    if d != [] {
      PutAbsent(d[1..], k, v);
      assert d == [d[0]] + d[1..];
    }
  }

  /** A dict comprehension over `ps`: the entries are written left to right. */
  function FromPairs<K(==), V>(ps: seq<(K, V)>): (r: Dict<K, V>)
    ensures Keys(r) == Keys(ps)
    decreases |ps|
  {
    if ps == [] then []
    else
      var n := |ps| - 1;
      assert ps == ps[..n] + [ps[n]];
      KeysAppend(ps[..n], [ps[n]]);
      Put(FromPairs(ps[..n]), ps[n].0, ps[n].1)
  }

  /** A comprehension never repeats a key. */
  lemma {:induction false} FromPairsDistinctKeys<K, V>(ps: seq<(K, V)>)
    ensures DistinctKeys(FromPairs(ps))
  {
    if ps != [] {
      var n := |ps| - 1;
      FromPairsDistinctKeys(ps[..n]);
      PutDistinct(FromPairs(ps[..n]), ps[n].0, ps[n].1);
    }
  }

  /** No later entry of `ps` carries the key of entry `i`. */
  predicate LastFor<K(==), V>(ps: seq<(K, V)>, i: int)
    requires 0 <= i < |ps|
  {
    forall j :: i < j < |ps| ==> ps[j].0 != ps[i].0
  }

  /** Last write wins: the value a comprehension keeps for a key is the one
      from the last entry carrying that key. */
  lemma {:induction false} FromPairsLastWins<K, V>(ps: seq<(K, V)>, i: int)
    requires 0 <= i < |ps|
    requires LastFor(ps, i)
    ensures Get(FromPairs(ps), ps[i].0) == Some(ps[i].1)
  {
    var n := |ps| - 1;
    PutGet(FromPairs(ps[..n]), ps[n].0, ps[n].1, ps[i].0);
    if i < n {
      assert LastFor(ps[..n], i) by {
        forall j | i < j < n ensures ps[..n][j].0 != ps[..n][i].0 {
          assert ps[..n][j] == ps[j] && ps[..n][i] == ps[i];
        }
      }
      FromPairsLastWins(ps[..n], i);
      assert ps[..n][i] == ps[i];
    }
  }

  /** Every key of `ps` has a last entry. */
  lemma LastIndexExists<K, V>(ps: seq<(K, V)>, k: K) returns (i: int)
    requires k in Keys(ps)
    ensures 0 <= i < |ps| && ps[i].0 == k && LastFor(ps, i)
  {
    KeysIndex(ps, k);
    var j :| 0 <= j < |ps| && ps[j].0 == k;
    i := j;
    while exists l :: i < l < |ps| && ps[l].0 == k
      invariant 0 <= i < |ps| && ps[i].0 == k
      decreases |ps| - i
    {
      var l :| i < l < |ps| && ps[l].0 == k;
      i := l;
    }
  }

  /** The full characterisation of a comprehension: a key maps to `v`
      exactly when the last entry carrying that key holds `v`. */
  lemma FromPairsGet<K, V>(ps: seq<(K, V)>, k: K, v: V)
    ensures Get(FromPairs(ps), k) == Some(v) <==>
            exists i :: 0 <= i < |ps| && ps[i] == (k, v) && LastFor(ps, i)
  {
    if Get(FromPairs(ps), k) == Some(v) {
      var i := LastIndexExists(ps, k);
      FromPairsLastWins(ps, i);
      assert ps[i] == (k, v);
    }
    if exists i :: 0 <= i < |ps| && ps[i] == (k, v) && LastFor(ps, i) {
      var i :| 0 <= i < |ps| && ps[i] == (k, v) && LastFor(ps, i);
      FromPairsLastWins(ps, i);
    }
  }

  /** Without repeated keys a comprehension loses nothing and keeps order. */
  lemma {:induction false} FromPairsDistinct<K, V>(ps: seq<(K, V)>)
    requires DistinctKeys(ps)
    ensures FromPairs(ps) == ps
  {
    if ps != [] {
      var n := |ps| - 1;
      assert DistinctKeys(ps[..n]) by {
        forall i, j | 0 <= i < j < n ensures ps[..n][i].0 != ps[..n][j].0 {
          assert ps[..n][i] == ps[i] && ps[..n][j] == ps[j];
        }
      }
      FromPairsDistinct(ps[..n]);
      assert ps[n].0 !in Keys(ps[..n]) by {
        KeysIndex(ps[..n], ps[n].0);
        forall i | 0 <= i < n ensures ps[..n][i].0 != ps[n].0 {
          assert ps[..n][i] == ps[i];
        }
      }
      PutAbsent(ps[..n], ps[n].0, ps[n].1);
      assert ps == ps[..n] + [ps[n]];
    }
  }
}

=== FILE: filter_laws.dfy ===
/** Laws of the filter algebra and of the wire forms of operators, sorts and
    values. */
module FilterLaws {
  import opened Wrappers
  import opened Json
  import Dicts
  import opened Filters

  // ===========================================================================
  // Flattening
  // ===========================================================================

  /** `&` splices the children of an `And` operand, on either side. */
  lemma ConjoinSplices(a: Filter, b: Filter)
    ensures Conjoin(a, b).And?
    ensures a.And? && b.And? ==> Conjoin(a, b).children == a.children + b.children
    ensures a.And? && !b.And? ==> Conjoin(a, b).children == a.children + [b]
    ensures !a.And? && b.And? ==> Conjoin(a, b).children == [a] + b.children
    ensures !a.And? && !b.And? ==> Conjoin(a, b).children == [a, b]
  {
  }

  /** `|` splices the children of an `Or` operand, on either side. */
  lemma DisjoinSplices(a: Filter, b: Filter)
    ensures Disjoin(a, b).Or?
    ensures a.Or? && b.Or? ==> Disjoin(a, b).children == a.children + b.children
    ensures a.Or? && !b.Or? ==> Disjoin(a, b).children == a.children + [b]
    ensures !a.Or? && b.Or? ==> Disjoin(a, b).children == [a] + b.children
    ensures !a.Or? && !b.Or? ==> Disjoin(a, b).children == [a, b]
  {
  }

  /** `(a & b) & c` and `a & (b & c)` are the same filter. */
  lemma ConjoinAssociative(a: Filter, b: Filter, c: Filter)
    ensures Conjoin(Conjoin(a, b), c) == Conjoin(a, Conjoin(b, c))
  {
    assert (AndOperands(a) + AndOperands(b)) + AndOperands(c)
        == AndOperands(a) + (AndOperands(b) + AndOperands(c));
  }

  /** `(a | b) | c` and `a | (b | c)` are the same filter. */
  lemma DisjoinAssociative(a: Filter, b: Filter, c: Filter)
    ensures Disjoin(Disjoin(a, b), c) == Disjoin(a, Disjoin(b, c))
  {
    assert (OrOperands(a) + OrOperands(b)) + OrOperands(c)
        == OrOperands(a) + (OrOperands(b) + OrOperands(c));
  }

  /** `&` of flat operands is flat: no `And` ever sits directly in an `And`
      built by `&`. */
  lemma ConjoinFlat(a: Filter, b: Filter)
    requires AndFlat(a) && AndFlat(b)
    ensures AndFlat(Conjoin(a, b))
  {
  }

  /** `|` of flat operands is flat. */
  lemma DisjoinFlat(a: Filter, b: Filter)
    requires OrFlat(a) && OrFlat(b)
    ensures OrFlat(Disjoin(a, b))
  {
  }

  /** Only same-kind groups flatten: an `Or` operand of `&` stays one child,
      and so does an `And` operand of `|`. */
  lemma MixedGroupsNest(a: Filter, b: Filter)
    ensures a.Or? ==> Conjoin(a, b).children[0] == a
    ensures b.Or? ==> Conjoin(a, b).children[|Conjoin(a, b).children| - 1] == b
    ensures a.And? ==> Disjoin(a, b).children[0] == a
    ensures b.And? ==> Disjoin(a, b).children[|Disjoin(a, b).children| - 1] == b
  {
  }

  /** `all(a, b)` agrees with `a & b` exactly when neither operand is an
      `And`: `all` never flattens. */
  lemma AllOfPairIsConjoin(a: Filter, b: Filter)
    ensures AllOf([a, b]) == Conjoin(a, b) <==> !a.And? && !b.And?
  {
    // A filter is never among its own children, so splicing an `And`
    // operand always changes the child list.
    var cs := AndOperands(a) + AndOperands(b);
    if a.And? && |a.children| > 0 {
      assert cs[0] == a.children[0] && a.children[0] < a;
    }
    if a.And? && |a.children| == 0 && b.And? && |b.children| > 1 {
      assert cs[1] == b.children[1] && b.children[1] < b;
    }
    if !a.And? && b.And? && |b.children| > 0 {
      assert cs[1] == b.children[0] && b.children[0] < b;
    }
  }

  /** `all(a, b)` and `any(a, b)` keep their arguments verbatim, nested groups
      included. */
  lemma AllAnyVerbatim(args: seq<Filter>)
    ensures AllOf(args).And? && AllOf(args).children == args
    ensures AnyOf(args).Or? && AnyOf(args).children == args
  {
  }

  /** `f0 & f1 & ... & fn`, evaluated left to right. */
  function ConjoinChain(acc: Filter, rest: seq<Filter>): Filter
    decreases |rest|
  {
    if rest == [] then acc else ConjoinChain(Conjoin(acc, rest[0]), rest[1..])
  }

  /** A left-to-right `&` chain collects every operand into one `And`. */
  lemma {:induction false} ConjoinChainFlattens(acc: Filter, rest: seq<Filter>)
    requires |rest| >= 1
    requires forall i :: 0 <= i < |rest| ==> !rest[i].And?
    ensures ConjoinChain(acc, rest) == And(AndOperands(acc) + rest)
    decreases |rest|
  {
    var next := Conjoin(acc, rest[0]);
    assert next == And(AndOperands(acc) + [rest[0]]);
    if |rest| > 1 {
      ConjoinChainFlattens(next, rest[1..]);
      assert AndOperands(next) + rest[1..] == AndOperands(acc) + rest;
    }
  }

  /** `a & (b & (c & ...))`, nested to the right. */
  function ConjoinNest(fs: seq<Filter>): Filter
    requires |fs| >= 1
    decreases |fs|
  {
    if |fs| == 1 then fs[0] else Conjoin(fs[0], ConjoinNest(fs[1..]))
  }

  /** A right-nested `&` of conditions is the same filter as `all` of them. */
  lemma {:induction false} ConjoinNestFlattens(fs: seq<Filter>)
    requires |fs| >= 2
    requires forall i :: 0 <= i < |fs| ==> !fs[i].And?
    ensures ConjoinNest(fs) == AllOf(fs)
  {
    if |fs| > 2 {
      var tail := ConjoinNest(fs[1..]);
      assert ConjoinNest(fs) == Conjoin(fs[0], tail);
      ConjoinNestFlattens(fs[1..]);
      assert tail == And(fs[1..]);
      assert Conjoin(fs[0], tail) == And([fs[0]] + fs[1..]);
      assert [fs[0]] + fs[1..] == fs;
    } else {
      assert fs[1..] == [fs[1]];
      assert fs == [fs[0], fs[1]];
    }
  }

  /** Left-nested, right-nested and `all` produce identical JSON for a list
      of conditions. */
  lemma ChainsSerializeAlike(fs: seq<Filter>)
    requires |fs| >= 2
    requires forall i :: 0 <= i < |fs| ==> !fs[i].And?
    ensures SerializeFilter(ConjoinChain(fs[0], fs[1..])) == SerializeFilter(AllOf(fs))
    ensures SerializeFilter(ConjoinNest(fs)) == SerializeFilter(AllOf(fs))
  {
    ConjoinChainFlattens(fs[0], fs[1..]);
    assert [fs[0]] + fs[1..] == fs;
    ConjoinNestFlattens(fs);
  }

  // ===========================================================================
  // Serialised shapes
  // ===========================================================================

  /** Serialising a concatenation concatenates the serialised lists. */
  lemma {:induction false} SerializeFiltersAppend(xs: seq<Filter>, ys: seq<Filter>)
    ensures SerializeFilters(xs + ys) == SerializeFilters(xs) + SerializeFilters(ys)
  {
    if xs == [] {
      assert xs + ys == ys;
    } else {
      assert (xs + ys)[0] == xs[0];
      assert (xs + ys)[1..] == xs[1..] + ys;
      SerializeFiltersAppend(xs[1..], ys);
    }
  }

  /** The JSON of `a & b` lists the JSON of the spliced operands in order. */
  lemma SerializeConjoin(a: Filter, b: Filter)
    ensures SerializeFilter(Conjoin(a, b)) ==
            JObj([("and", JArr(SerializeFilters(AndOperands(a)) + SerializeFilters(AndOperands(b))))])
  {
    SerializeFiltersAppend(AndOperands(a), AndOperands(b));
  }

  /** A condition serialises to exactly two distinct keys: `"property"` with
      the column name and the column kind with the operator's object, which
      in turn has exactly one key. */
  lemma ConditionShape(p: Property, op: Operator)
    ensures var j := SerializeFilter(Condition(p, op));
      && j.JObj? && |j.fields| == 2
      && Dicts.DistinctKeys(j.fields)
      && Member(j, "property") == Some(JStr(p.name))
      && Member(j, KindName(p.kind)) == Some(SerializeOperator(op))
      && |SerializeOperator(op).fields| == 1
      && Member(SerializeOperator(op), OperatorKey(op)) == Some(OperatorArgument(op))
  {
    var j := SerializeFilter(Condition(p, op));
    assert KindName(p.kind) != "property";
    assert j.fields[1..] == [(KindName(p.kind), SerializeOperator(op))];
    assert Dicts.Get(j.fields[1..], KindName(p.kind)) == Some(SerializeOperator(op));
  }

  /** The end-to-end example: an unchecked checkbox and a select equality,
      joined by `&`. */
  lemma CheckboxAndSelectScenario()
    ensures SerializeFilter(Conjoin(Unchecked(Property("Done", CheckboxKind)),
                                    Equal(Property("Type", SelectKind), Str("Credit"))))
         == JObj([("and", JArr([
              JObj([("property", JStr("Done")), ("checkbox", JObj([("equals", JBool(false))]))]),
              JObj([("property", JStr("Type")), ("select", JObj([("equals", JStr("Credit"))]))])]))])
  {
    var a := Unchecked(Property("Done", CheckboxKind));
    var b := Equal(Property("Type", SelectKind), Str("Credit"));
    assert SerializeFilters([a, b]) == [SerializeFilter(a), SerializeFilter(b)];
  }

  // ===========================================================================
  // The builders' operator table
  // ===========================================================================

  /** `checked()` / `unchecked()` send `equals` with `true` / `false`. */
  lemma CheckboxFilters(p: Property)
    requires p.kind == CheckboxKind
    ensures SerializeFilter(Checked(p)) ==
            JObj([("property", JStr(p.name)), ("checkbox", JObj([("equals", JBool(true))]))])
    ensures SerializeFilter(Unchecked(p)) ==
            JObj([("property", JStr(p.name)), ("checkbox", JObj([("equals", JBool(false))]))])
  {
  }

  /** Each status helper is `equals` with its state's display name. */
  lemma StatusFilters(p: Property, s: State)
    requires p.kind == StatusKind
    ensures SerializeFilter(StatusIs(p, s)) ==
            JObj([("property", JStr(p.name)), ("status", JObj([("equals", JStr(StateName(s)))]))])
    ensures s == NotStarted ==> StateName(s) == "Not started"
    ensures s == InProgress ==> StateName(s) == "In progress"
    ensures s == Paused ==> StateName(s) == "Paused"
    ensures s == Done ==> StateName(s) == "Done"
    ensures s == Abandoned ==> StateName(s) == "Abandoned"
  {
  }

  /** Date `>`, `>=`, `<`, `<=` are `after`, `on_or_after`, `before`,
      `on_or_before`, each carrying the date. */
  lemma DateComparisons(p: Property, cmp: Comparison, d: string)
    requires p.kind == DateKind
    ensures var f := DateCompare(p, cmp, d);
      && f.Condition? && f.property == p
      && OperatorArgument(f.operator) == JStr(d)
      && OperatorKey(f.operator) == match cmp
           case Gt => "after" case Ge => "on_or_after"
           case Lt => "before" case Le => "on_or_before"
  {
  }

  /** Number `>`, `>=`, `<`, `<=` carry the number under their key. */
  lemma NumberComparisons(p: Property, cmp: Comparison, n: int)
    requires p.kind == NumberKind
    ensures var f := NumberCompare(p, cmp, n);
      && f.Condition? && f.property == p
      && OperatorArgument(f.operator) == JInt(n)
      && OperatorKey(f.operator) == match cmp
           case Gt => "greater_than" case Ge => "greater_than_or_equal_to"
           case Lt => "less_than" case Le => "less_than_or_equal_to"
  {
  }

  /** The relative date windows carry an empty object under their own key. */
  lemma DateWindowOperators(p: Property, w: Window)
    requires p.kind == DateKind
    ensures OperatorArgument(DateWithin(p, w).operator) == JObj([])
    ensures w == InNextMonth ==> OperatorKey(DateWithin(p, w).operator) == "next_month"
    ensures w == InNextWeek ==> OperatorKey(DateWithin(p, w).operator) == "next_week"
    ensures w == InNextYear ==> OperatorKey(DateWithin(p, w).operator) == "next_year"
    ensures w == InPastMonth ==> OperatorKey(DateWithin(p, w).operator) == "past_month"
    ensures w == InPastWeek ==> OperatorKey(DateWithin(p, w).operator) == "past_week"
    ensures w == InPastYear ==> OperatorKey(DateWithin(p, w).operator) == "past_year"
    ensures w == InThisWeek ==> OperatorKey(DateWithin(p, w).operator) == "this_week"
  {
  }

  /** `empty()` and `not_empty()`, available on every column, carry `true`. */
  lemma EmptinessOperators(p: Property)
    ensures SerializeFilter(IsEmpty(p)) ==
      JObj([("property", JStr(p.name)), (KindName(p.kind), JObj([("is_empty", JBool(true))]))])
    ensures SerializeFilter(IsNotEmpty(p)) ==
      JObj([("property", JStr(p.name)), (KindName(p.kind), JObj([("is_not_empty", JBool(true))]))])
  {
  }

  // ===========================================================================
  // Operators on the wire
  // ===========================================================================

  /** Every operator is read back from its JSON, dates as their text. */
  lemma OperatorRoundTrip(op: Operator)
    ensures ParseOperator(SerializeOperator(op)) == Some(WireForm(op))
    ensures SerializeOperator(WireForm(op)) == SerializeOperator(op)
  {
  }

  /** Two operators serialise alike exactly when they agree up to the
      date/text distinction: every operator has its own key. */
  lemma OperatorSerializationInjective(a: Operator, b: Operator)
    ensures SerializeOperator(a) == SerializeOperator(b) <==> WireForm(a) == WireForm(b)
  {
    OperatorRoundTrip(a);
    OperatorRoundTrip(b);
  }

  // ===========================================================================
  // Membership tests
  // ===========================================================================

  /** `contains(item)` keeps the item: different items give different filters. */
  lemma HasItemInjective(p: Property, a: string, b: string)
    ensures HasItem(p, a) == HasItem(p, b) <==> a == b
  {
    if HasItem(p, a) == HasItem(p, b) {
      assert SerializeOperator(HasItem(p, a).operator) == SerializeOperator(HasItem(p, b).operator);
      assert JObj([("contains", JStr(a))]).fields[0].1.s == a;
    }
  }

  /** `item in property` forgets the item: every test gives the same answer. */
  lemma InOperatorForgetsItem(p: Property, a: string, b: string)
    ensures InOperator(p, a) == InOperator(p, b)
  {
  }

  /** Two tags that `contains` tells apart and `in` does not. */
  lemma InOperatorCounterexample()
    ensures var tags := Property("Tags", MultiSelectKind);
      HasItem(tags, "work") != HasItem(tags, "home") &&
      InOperator(tags, "work") == InOperator(tags, "home") == true
  {
    HasItemInjective(Property("Tags", MultiSelectKind), "work", "home");
  }

  // ===========================================================================
  // Sorts on the wire
  // ===========================================================================

  /** A sort is read back from its JSON. */
  lemma SortRoundTrip(s: Sort)
    ensures ParseSort(SerializeSort(s)) == Some(s)
  {
  }

  // ===========================================================================
  // Values on the wire
  // ===========================================================================

  /** A relation is always a list of `{"id": ...}`: one id and the list of
      that one id serialise alike, and a list keeps its length and order. */
  lemma RelationNormalised(id: string, ids: seq<string>)
    ensures SerializeValue(RelationValue(OneId(id))) == SerializeValue(RelationValue(ManyIds([id])))
    ensures SerializeValue(RelationValue(OneId(id))) == JArr([JObj([("id", JStr(id))])])
    ensures var j := SerializeValue(RelationValue(ManyIds(ids)));
      j.JArr? && |j.items| == |ids| &&
      forall i :: 0 <= i < |ids| ==> j.items[i] == JObj([("id", JStr(ids[i]))])
  {
  }

  /** A multi-select keeps its names, in order, each as `{"name": ...}`. */
  lemma NamesSerialised(names: seq<string>)
    ensures var j := SerializeValue(NamesValue(names));
      j.JArr? && |j.items| == |names| &&
      forall i :: 0 <= i < |names| ==> j.items[i] == JObj([("name", JStr(names[i]))])
  {
  }

  /** A title keeps its fragments in order; plain text becomes
      `{"text": {"content": ...}}`. */
  lemma TitleSerialised(fs: seq<Fragment>)
    ensures var j := SerializeValue(TitleValue(fs));
      j.JArr? && |j.items| == |fs| &&
      forall i :: 0 <= i < |fs| && fs[i].Text? ==>
        j.items[i] == JObj([("text", JObj([("content", JStr(fs[i].content))]))])
  {
  }

  /** Rich text and titles serialise their fragments alike. */
  lemma TextValuesSerialiseAlike(fs: seq<Fragment>)
    ensures SerializeValue(RichTextValue(fs)) == SerializeValue(TitleValue(fs))
    ensures SerializeValue(RichTextValue(fs)) == JArr(SerializeFragments(fs))
  {
  }

  /** Every mention is one `"mention"` key holding one key named after the
      mentioned kind. */
  lemma MentionShape(m: Mention)
    ensures var j := SerializeMention(m);
      j.JObj? && |j.fields| == 1 && j.fields[0].0 == "mention" &&
      j.fields[0].1.JObj? && |j.fields[0].1.fields| == 1
    ensures m.MentionDate? ==>
              SerializeMention(m) ==
              JObj([("mention", JObj([("date", JObj([("start", JStr(m.start)), ("end", OptStr(m.end))]))]))])
    ensures m.MentionUser? ==>
              SerializeMention(m) == JObj([("mention", JObj([("user", JObj([("id", JStr(m.id))]))]))])
    ensures m.MentionPage? ==>
              SerializeMention(m) == JObj([("mention", JObj([("page", JObj([("id", JStr(m.id))]))]))])
    ensures m.MentionDatabase? ==>
              SerializeMention(m) == JObj([("mention", JObj([("database", JObj([("id", JStr(m.id))]))]))])
    ensures m.MentionLinkPreview? ==>
              SerializeMention(m) ==
              JObj([("mention", JObj([("link_preview", JObj([("url", JStr(m.url))]))]))])
  {
  }

  /** An assignment is one entry: the column name mapping to an object keyed
      by the column kind. The descriptors' `assign` builders fill it in. */
  lemma AssignmentShapes(name: string, b: bool, n: int, start: string, end: Option<string>,
                         choice: string, choices: seq<string>, target: RelationTarget,
                         fragments: seq<Fragment>)
    ensures SerializeAssign(CheckboxAssign(Property(name, CheckboxKind), b)) ==
      JObj([(name, JObj([("checkbox", JBool(b))]))])
    ensures SerializeAssign(NumberAssign(Property(name, NumberKind), n)) ==
      JObj([(name, JObj([("number", JInt(n))]))])
    ensures SerializeAssign(DateAssign(Property(name, DateKind), start, end)) ==
      JObj([(name, JObj([("date", JObj([("start", JStr(start)), ("end", OptStr(end))]))]))])
    ensures SerializeAssign(NameAssign(Property(name, StatusKind), choice)) ==
      JObj([(name, JObj([("status", JObj([("name", JStr(choice))]))]))])
    ensures SerializeAssign(NameAssign(Property(name, SelectKind), choice)) ==
      JObj([(name, JObj([("select", JObj([("name", JStr(choice))]))]))])
    ensures SerializeAssign(MultiSelectAssign(Property(name, MultiSelectKind), choices)) ==
      JObj([(name, JObj([("multi_select", JArr(NameObjects(choices)))]))])
    ensures SerializeAssign(RelationAssign(Property(name, RelationKind), target)) ==
      JObj([(name, JObj([("relation", JArr(IdObjects(TargetIds(target))))]))])
    ensures SerializeAssign(Assign(Property(name, TitleKind), TitleValue(fragments))) ==
      JObj([(name, JObj([("title", JArr(SerializeFragments(fragments)))]))])
    ensures SerializeAssign(Assign(Property(name, RichTextKind), RichTextValue(fragments))) ==
      JObj([(name, JObj([("rich_text", JArr(SerializeFragments(fragments)))]))])
  {
    ScalarAssignShapes(name, b, n, start, end);
    ChoiceAssignShapes(name, choice, choices, target);
    TextAssignShapes(name, fragments);
  }

  /** The scalar assignments: checkbox, number and date. */
  lemma ScalarAssignShapes(name: string, b: bool, n: int, start: string, end: Option<string>)
    ensures SerializeAssign(CheckboxAssign(Property(name, CheckboxKind), b)) ==
      JObj([(name, JObj([("checkbox", JBool(b))]))])
    ensures SerializeAssign(NumberAssign(Property(name, NumberKind), n)) ==
      JObj([(name, JObj([("number", JInt(n))]))])
    ensures SerializeAssign(DateAssign(Property(name, DateKind), start, end)) ==
      JObj([(name, JObj([("date", JObj([("start", JStr(start)), ("end", OptStr(end))]))]))])
  {
  }

  /** The text assignments: title and rich text, fragment by fragment. */
  lemma TextAssignShapes(name: string, fragments: seq<Fragment>)
    ensures SerializeAssign(Assign(Property(name, TitleKind), TitleValue(fragments))) ==
      JObj([(name, JObj([("title", JArr(SerializeFragments(fragments)))]))])
    ensures SerializeAssign(Assign(Property(name, RichTextKind), RichTextValue(fragments))) ==
      JObj([(name, JObj([("rich_text", JArr(SerializeFragments(fragments)))]))])
  {
  }

  /** The choice and list assignments: status, select, multi-select and relation. */
  lemma ChoiceAssignShapes(name: string, choice: string, choices: seq<string>, target: RelationTarget)
    ensures SerializeAssign(NameAssign(Property(name, StatusKind), choice)) ==
      JObj([(name, JObj([("status", JObj([("name", JStr(choice))]))]))])
    ensures SerializeAssign(NameAssign(Property(name, SelectKind), choice)) ==
      JObj([(name, JObj([("select", JObj([("name", JStr(choice))]))]))])
    ensures SerializeAssign(MultiSelectAssign(Property(name, MultiSelectKind), choices)) ==
      JObj([(name, JObj([("multi_select", JArr(NameObjects(choices)))]))])
    ensures SerializeAssign(RelationAssign(Property(name, RelationKind), target)) ==
      JObj([(name, JObj([("relation", JArr(IdObjects(TargetIds(target))))]))])
  {
  }

  /** `property.sort(direction)` names the column and spells the direction. */
  lemma SortShape(p: Property, d: Direction)
    ensures SerializeSort(SortBy(p, d)) ==
      JObj([("property", JStr(p.name)),
            ("direction", JStr(if d == Ascending then "ascending" else "descending"))])
    ensures ParseSort(SerializeSort(SortBy(p, d))) == Some(Sort(p.name, d))
  {
  }
}

=== FILE: filters.dfy ===
/** The query and mutation vocabulary sent to the document backend:
    property descriptors, comparison operators, the filter algebra, sorts,
    property assignments and the wire values they carry, each with the JSON
    shape it is serialised to. */
module Filters {
  import opened Wrappers
  import opened Json
  import Dicts

  // ===========================================================================
  // Properties
  // ===========================================================================

  /** The column types a descriptor can name. */
  datatype Kind =
    | CheckboxKind | DateKind | MultiSelectKind | NumberKind | RelationKind
    | RichTextKind | SelectKind | StatusKind | TitleKind | UniqueIdKind

  /** The discriminator a kind contributes to filters and assignments. */
  function KindName(k: Kind): string {
    match k
    case CheckboxKind => "checkbox"
    case DateKind => "date"
    case MultiSelectKind => "multi_select"
    case NumberKind => "number"
    case RelationKind => "relation"
    case RichTextKind => "rich_text"
    case SelectKind => "select"
    case StatusKind => "status"
    case TitleKind => "title"
    case UniqueIdKind => "unique_id"
  }

  /** A column, named and typed. */
  datatype Property = Property(name: string, kind: Kind)

  /** Names a descriptor takes when the caller gives none. */
  const DefaultDateName: string := "Date"
  const DefaultStatusName: string := "Status"
  const DefaultTitleName: string := "Name"

  // ===========================================================================
  // Operators
  // ===========================================================================

  /** A comparison value. Dates travel as their ISO text. */
  datatype Scalar = Str(s: string) | Int(i: int) | Bool(b: bool) | Day(iso: string)

  function ScalarJson(x: Scalar): J {
    match x
    case Str(s) => JStr(s)
    case Int(i) => JInt(i)
    case Bool(b) => JBool(b)
    case Day(iso) => JStr(iso)
  }

  datatype Operator =
    | Equals(value: Scalar)
    | NotEquals(value: Scalar)
    | Contains(item: string)
    | NotContains(item: string)
    | Empty
    | NotEmpty
    | After(date: string)
    | OnOrAfter(date: string)
    | Before(date: string)
    | OnOrBefore(date: string)
    | NextMonth
    | NextWeek
    | NextYear
    | PastMonth
    | PastWeek
    | PastYear
    | ThisWeek
    | LessThan(number: int)
    | LessThanOrEqual(number: int)
    | GreaterThan(number: int)
    | GreaterThanOrEqual(number: int)

  /** The single key an operator is serialised under. */
  function OperatorKey(op: Operator): string {
    match op
    case Equals(_) => "equals"
    case NotEquals(_) => "does_not_equal"
    case Contains(_) => "contains"
    case NotContains(_) => "does_not_contains"
    case Empty => "is_empty"
    case NotEmpty => "is_not_empty"
    case After(_) => "after"
    case OnOrAfter(_) => "on_or_after"
    case Before(_) => "before"
    case OnOrBefore(_) => "on_or_before"
    case NextMonth => "next_month"
    case NextWeek => "next_week"
    case NextYear => "next_year"
    case PastMonth => "past_month"
    case PastWeek => "past_week"
    case PastYear => "past_year"
    case ThisWeek => "this_week"
    case LessThan(_) => "less_than"
    case LessThanOrEqual(_) => "less_than_or_equal_to"
    case GreaterThan(_) => "greater_than"
    case GreaterThanOrEqual(_) => "greater_than_or_equal_to"
  }

  /** The value stored under the operator's key. */
  function OperatorArgument(op: Operator): J {
    match op
    case Equals(x) => ScalarJson(x)
    case NotEquals(x) => ScalarJson(x)
    case Contains(s) => JStr(s)
    case NotContains(s) => JStr(s)
    case Empty => JBool(true)
    case NotEmpty => JBool(true)
    case After(d) => JStr(d)
    case OnOrAfter(d) => JStr(d)
    case Before(d) => JStr(d)
    case OnOrBefore(d) => JStr(d)
    case LessThan(n) => JInt(n)
    case LessThanOrEqual(n) => JInt(n)
    case GreaterThan(n) => JInt(n)
    case GreaterThanOrEqual(n) => JInt(n)
    case _ => JObj([])
  }

  /** `{key: argument}`: one entry, which `ParseOperator` reads back. */
  function SerializeOperator(op: Operator): (r: J)
    ensures r.JObj? && |r.fields| == 1
    ensures ParseOperator(r) == Some(WireForm(op))
  {
    JObj([(OperatorKey(op), OperatorArgument(op))])
  }

  /** What survives the wire: a date compared for equality arrives as text. */
  function WireForm(op: Operator): Operator {
    match op
    case Equals(Day(iso)) => Equals(Str(iso))
    case NotEquals(Day(iso)) => NotEquals(Str(iso))
    case _ => op
  }

  function ParseScalar(j: J): Option<Scalar> {
    match j
    case JStr(s) => Some(Str(s))
    case JInt(i) => Some(Int(i))
    case JBool(b) => Some(Bool(b))
    case _ => None
  }

  /** Reads an operator back from its one-key object: the independent
      reference against which the serialiser is checked. */
  function ParseOperator(j: J): Option<Operator> {
    if !j.JObj? || |j.fields| != 1 then None
    else
      var key := j.fields[0].0;
      var arg := j.fields[0].1;
      if key == "equals" then
        (match ParseScalar(arg) case Some(x) => Some(Equals(x)) case None => None)
      else if key == "does_not_equal" then
        (match ParseScalar(arg) case Some(x) => Some(NotEquals(x)) case None => None)
      else if key == "contains" then (if arg.JStr? then Some(Contains(arg.s)) else None)
      else if key == "does_not_contains" then (if arg.JStr? then Some(NotContains(arg.s)) else None)
      else if key == "is_empty" then (if arg == JBool(true) then Some(Empty) else None)
      else if key == "is_not_empty" then (if arg == JBool(true) then Some(NotEmpty) else None)
      else if key == "after" then (if arg.JStr? then Some(After(arg.s)) else None)
      else if key == "on_or_after" then (if arg.JStr? then Some(OnOrAfter(arg.s)) else None)
      else if key == "before" then (if arg.JStr? then Some(Before(arg.s)) else None)
      else if key == "on_or_before" then (if arg.JStr? then Some(OnOrBefore(arg.s)) else None)
      else if key == "next_month" then (if arg == JObj([]) then Some(NextMonth) else None)
      else if key == "next_week" then (if arg == JObj([]) then Some(NextWeek) else None)
      else if key == "next_year" then (if arg == JObj([]) then Some(NextYear) else None)
      else if key == "past_month" then (if arg == JObj([]) then Some(PastMonth) else None)
      else if key == "past_week" then (if arg == JObj([]) then Some(PastWeek) else None)
      else if key == "past_year" then (if arg == JObj([]) then Some(PastYear) else None)
      else if key == "this_week" then (if arg == JObj([]) then Some(ThisWeek) else None)
      else if key == "less_than" then (if arg.JInt? then Some(LessThan(arg.i)) else None)
      else if key == "less_than_or_equal_to" then (if arg.JInt? then Some(LessThanOrEqual(arg.i)) else None)
      else if key == "greater_than" then (if arg.JInt? then Some(GreaterThan(arg.i)) else None)
      else if key == "greater_than_or_equal_to" then (if arg.JInt? then Some(GreaterThanOrEqual(arg.i)) else None)
      else None
  }

  // ===========================================================================
  // Filters
  // ===========================================================================

  datatype Filter =
    | EmptyFilter
    | CustomFilter(raw: Dicts.Dict<string, J>)
    | Condition(property: Property, operator: Operator)
    | And(children: seq<Filter>)
    | Or(children: seq<Filter>)

  /** The operands an `&` contributes: an `And` gives its children, anything
      else gives itself. */
  function AndOperands(f: Filter): seq<Filter> {
    if f.And? then f.children else [f]
  }

  /** The operands an `|` contributes: an `Or` gives its children. */
  function OrOperands(f: Filter): seq<Filter> {
    if f.Or? then f.children else [f]
  }

  /** An `And` none of whose children is an `And`. */
  predicate AndFlat(f: Filter) {
    f.And? ==> forall i :: 0 <= i < |f.children| ==> !f.children[i].And?
  }

  /** An `Or` none of whose children is an `Or`. */
  predicate OrFlat(f: Filter) {
    f.Or? ==> forall i :: 0 <= i < |f.children| ==> !f.children[i].Or?
  }

  /** `a & b`: always an `And`; an operand that is not an `And` becomes one
      child at its own end, and flat operands give a flat result. */
  function Conjoin(a: Filter, b: Filter): (r: Filter)
    ensures r.And? && |r.children| == |AndOperands(a)| + |AndOperands(b)|
    ensures !a.And? ==> r.children[0] == a
    ensures !b.And? ==> r.children[|r.children| - 1] == b
    ensures AndFlat(a) && AndFlat(b) ==> AndFlat(r)
  {
    And(AndOperands(a) + AndOperands(b))
  }

  /** `a | b`: the same splicing for `Or`. */
  function Disjoin(a: Filter, b: Filter): (r: Filter)
    ensures r.Or? && |r.children| == |OrOperands(a)| + |OrOperands(b)|
    ensures !a.Or? ==> r.children[0] == a
    ensures !b.Or? ==> r.children[|r.children| - 1] == b
    ensures OrFlat(a) && OrFlat(b) ==> OrFlat(r)
  {
    Or(OrOperands(a) + OrOperands(b))
  }

  /** `all(*args)`: the arguments, verbatim, under one `And`; for two
      operands that are not `And`s it is `a & b`. */
  function AllOf(args: seq<Filter>): (r: Filter)
    ensures r.And? && r.children == args
    ensures |args| == 2 && !args[0].And? && !args[1].And? ==> r == Conjoin(args[0], args[1])
  {
    And(args)
  }

  /** `any(*args)`: the arguments, verbatim, under one `Or`; for two
      operands that are not `Or`s it is `a | b`. */
  function AnyOf(args: seq<Filter>): (r: Filter)
    ensures r.Or? && r.children == args
    ensures |args| == 2 && !args[0].Or? && !args[1].Or? ==> r == Disjoin(args[0], args[1])
  {
    Or(args)
  }

  /** A filter's JSON: a condition is the column name beside the operator
      under the column kind; a group lists one entry per child. */
  function SerializeFilter(f: Filter): (r: J)
    ensures r.JObj?
    ensures f.Condition? ==>
              |r.fields| == 2 && Dicts.DistinctKeys(r.fields) &&
              r.fields[0] == ("property", JStr(f.property.name)) &&
              r.fields[1].1 == SerializeOperator(f.operator)
    ensures f.And? ==>
              |r.fields| == 1 && r.fields[0].0 == "and" &&
              r.fields[0].1.JArr? && |r.fields[0].1.items| == |f.children|
    ensures f.Or? ==>
              |r.fields| == 1 && r.fields[0].0 == "or" &&
              r.fields[0].1.JArr? && |r.fields[0].1.items| == |f.children|
    ensures f.CustomFilter? ==> r.fields == f.raw
  {
    match f
    case EmptyFilter => JObj([])
    case CustomFilter(raw) => JObj(raw)
    case Condition(p, op) =>
      JObj([("property", JStr(p.name)), (KindName(p.kind), SerializeOperator(op))])
    case And(cs) => JObj([("and", JArr(SerializeFilters(cs)))])
    case Or(cs) => JObj([("or", JArr(SerializeFilters(cs)))])
  }

  /** A list of filters, each serialised in place. */
  function SerializeFilters(cs: seq<Filter>): (r: seq<J>)
    ensures |r| == |cs|
    ensures forall i :: 0 <= i < |cs| ==> r[i] == SerializeFilter(cs[i])
  {
    if cs == [] then [] else [SerializeFilter(cs[0])] + SerializeFilters(cs[1..])
  }

  // ===========================================================================
  // Filter builders of the property descriptors
  // ===========================================================================

  function Matches(p: Property, op: Operator): Filter {
    Condition(p, op)
  }

  function Equal(p: Property, other: Scalar): Filter {
    Matches(p, Equals(other))
  }

  /** `not_equal`: the operator's value is text, a number or a boolean. */
  function NotEqual(p: Property, other: Scalar): Filter
    requires !other.Day?
  {
    Matches(p, NotEquals(other))
  }

  /** `contains(item)`: the condition the `contains` operator carries. */
  function HasItem(p: Property, item: string): (r: Filter)
    ensures r.Condition? && r.property == p
    ensures SerializeOperator(r.operator) == JObj([("contains", JStr(item))])
  {
    Matches(p, Contains(item))
  }

  /** The truth value Python gives a filter model: a pydantic model defines
      neither `__bool__` nor `__len__`, so every filter is true. */
  predicate Truthy(f: Filter) {
    true
  }

  /** `item in property` as the language evaluates it: `__contains__` builds
      the `contains` filter, and the `in` operator reduces it to its truth
      value, so the expression is `True` and the filter is lost. */
  function InOperator(p: Property, item: string): (r: bool)
    ensures r
  {
    Truthy(HasItem(p, item))
  }

  function LacksItem(p: Property, item: string): Filter {
    Matches(p, NotContains(item))
  }

  function IsEmpty(p: Property): Filter {
    Matches(p, Empty)
  }

  function IsNotEmpty(p: Property): Filter {
    Matches(p, NotEmpty)
  }

  function Checked(p: Property): Filter
    requires p.kind == CheckboxKind
  {
    Matches(p, Equals(Bool(true)))
  }

  function Unchecked(p: Property): Filter
    requires p.kind == CheckboxKind
  {
    Matches(p, Equals(Bool(false)))
  }

  /** The order comparisons of a date column: `>`, `>=`, `<`, `<=`. */
  datatype Comparison = Gt | Ge | Lt | Le

  function DateCompare(p: Property, cmp: Comparison, date: string): Filter
    requires p.kind == DateKind
  {
    match cmp
    case Gt => Matches(p, After(date))
    case Ge => Matches(p, OnOrAfter(date))
    case Lt => Matches(p, Before(date))
    case Le => Matches(p, OnOrBefore(date))
  }

  /** The date windows relative to the day the backend evaluates the query. */
  datatype Window = InNextMonth | InNextWeek | InNextYear | InPastMonth | InPastWeek | InPastYear | InThisWeek

  function DateWithin(p: Property, w: Window): Filter
    requires p.kind == DateKind
  {
    match w
    case InNextMonth => Matches(p, NextMonth)
    case InNextWeek => Matches(p, NextWeek)
    case InNextYear => Matches(p, NextYear)
    case InPastMonth => Matches(p, PastMonth)
    case InPastWeek => Matches(p, PastWeek)
    case InPastYear => Matches(p, PastYear)
    case InThisWeek => Matches(p, ThisWeek)
  }

  /** `Date.today()`, with the current day supplied by the caller. */
  function DateToday(p: Property, today: string): Filter
    requires p.kind == DateKind
  {
    Matches(p, Equals(Day(today)))
  }

  function NumberCompare(p: Property, cmp: Comparison, n: int): Filter
    requires p.kind == NumberKind
  {
    match cmp
    case Gt => Matches(p, GreaterThan(n))
    case Ge => Matches(p, GreaterThanOrEqual(n))
    case Lt => Matches(p, LessThan(n))
    case Le => Matches(p, LessThanOrEqual(n))
  }

  /** `Status.state(name)`. */
  function StatusState(p: Property, name: string): Filter
    requires p.kind == StatusKind
  {
    Equal(p, Str(name))
  }

  /** The workflow states the status helpers name. */
  datatype State = NotStarted | InProgress | Paused | Done | Abandoned

  function StateName(s: State): string {
    match s
    case NotStarted => "Not started"
    case InProgress => "In progress"
    case Paused => "Paused"
    case Done => "Done"
    case Abandoned => "Abandoned"
  }

  /** `not_started()`, `in_progress()`, `paused()`, `done()`, `abandoned()`. */
  function StatusIs(p: Property, s: State): Filter
    requires p.kind == StatusKind
  {
    StatusState(p, StateName(s))
  }

  // ===========================================================================
  // Sorts
  // ===========================================================================

  datatype Direction = Ascending | Descending

  datatype Sort = Sort(property: string, direction: Direction)

  function SortBy(p: Property, direction: Direction): Sort {
    Sort(p.name, direction)
  }

  function DirectionName(d: Direction): string {
    match d
    case Ascending => "ascending"
    case Descending => "descending"
  }

  /** `{"property": ..., "direction": ...}`, which `ParseSort` reads back. */
  function SerializeSort(s: Sort): (r: J)
    ensures r.JObj? && |r.fields| == 2
    ensures ParseSort(r) == Some(s)
  {
    JObj([("property", JStr(s.property)), ("direction", JStr(DirectionName(s.direction)))])
  }

  /** Reads a sort back from its JSON. */
  function ParseSort(j: J): Option<Sort> {
    if j.JObj? && |j.fields| == 2 && j.fields[0].0 == "property" && j.fields[0].1.JStr?
       && j.fields[1].0 == "direction"
    then
      if j.fields[1].1 == JStr("ascending") then Some(Sort(j.fields[0].1.s, Ascending))
      else if j.fields[1].1 == JStr("descending") then Some(Sort(j.fields[0].1.s, Descending))
      else None
    else None
  }

  /** A sort list, each sort serialised in place. */
  function SerializeSorts(ss: seq<Sort>): (r: seq<J>)
    ensures |r| == |ss|
    ensures forall i :: 0 <= i < |ss| ==> r[i] == SerializeSort(ss[i])
  {
    if ss == [] then [] else [SerializeSort(ss[0])] + SerializeSorts(ss[1..])
  }

  // ===========================================================================
  // Values
  // ===========================================================================

  datatype Mention =
    | MentionDate(start: string, end: Option<string>)
    | MentionPage(id: string)
    | MentionDatabase(id: string)
    | MentionUser(id: string)
    | MentionLinkPreview(url: string)

  /** One piece of a title or rich-text value. */
  datatype Fragment = Text(content: string) | Mentioned(mention: Mention)

  /** A relation target: one id, or a list of ids. */
  datatype RelationTarget = OneId(id: string) | ManyIds(ids: seq<string>)

  datatype Value =
    | Plain(scalar: Scalar)
    | RichTextValue(fragments: seq<Fragment>)
    | TitleValue(fragments: seq<Fragment>)
    | NameValue(name: string)
    | NamesValue(names: seq<string>)
    | DateValue(start: string, end: Option<string>)
    | RelationValue(target: RelationTarget)

  function SerializeMention(m: Mention): J {
    var body := match m
      case MentionDate(s, e) => ("date", JObj([("start", JStr(s)), ("end", OptStr(e))]))
      case MentionPage(id) => ("page", JObj([("id", JStr(id))]))
      case MentionDatabase(id) => ("database", JObj([("id", JStr(id))]))
      case MentionUser(id) => ("user", JObj([("id", JStr(id))]))
      case MentionLinkPreview(url) => ("link_preview", JObj([("url", JStr(url))]));
    JObj([("mention", JObj([body]))])
  }

  function SerializeFragment(f: Fragment): J {
    match f
    case Text(c) => JObj([("text", JObj([("content", JStr(c))]))])
    case Mentioned(m) => SerializeMention(m)
  }

  /** A fragment list, each fragment serialised in place. */
  function SerializeFragments(fs: seq<Fragment>): (r: seq<J>)
    ensures |r| == |fs|
    ensures forall i :: 0 <= i < |fs| ==> r[i] == SerializeFragment(fs[i])
  {
    if fs == [] then [] else [SerializeFragment(fs[0])] + SerializeFragments(fs[1..])
  }

  function NameObject(name: string): J {
    JObj([("name", JStr(name))])
  }

  function NameObjects(names: seq<string>): (r: seq<J>)
    ensures |r| == |names|
    ensures forall i :: 0 <= i < |names| ==> r[i] == NameObject(names[i])
  {
    if names == [] then [] else [NameObject(names[0])] + NameObjects(names[1..])
  }

  function IdObject(id: string): J {
    JObj([("id", JStr(id))])
  }

  function IdObjects(ids: seq<string>): (r: seq<J>)
    ensures |r| == |ids|
    ensures forall i :: 0 <= i < |ids| ==> r[i] == IdObject(ids[i])
  {
    if ids == [] then [] else [IdObject(ids[0])] + IdObjects(ids[1..])
  }

  /** A single id is treated as the list holding it. */
  function TargetIds(t: RelationTarget): seq<string> {
    match t
    case OneId(id) => [id]
    case ManyIds(ids) => ids
  }

  /** A value's JSON: list-valued kinds keep one entry per element, in
      order, and a relation is a list whatever the form of its target. */
  function SerializeValue(v: Value): (r: J)
    ensures v.Plain? ==> r == ScalarJson(v.scalar)
    ensures v.RichTextValue? || v.TitleValue? ==>
              r.JArr? && |r.items| == |v.fragments| &&
              forall i :: 0 <= i < |v.fragments| ==> r.items[i] == SerializeFragment(v.fragments[i])
    ensures v.NameValue? ==> r == JObj([("name", JStr(v.name))])
    ensures v.NamesValue? ==>
              r.JArr? && |r.items| == |v.names| &&
              forall i :: 0 <= i < |v.names| ==> r.items[i] == JObj([("name", JStr(v.names[i]))])
    ensures v.DateValue? ==> r == JObj([("start", JStr(v.start)), ("end", OptStr(v.end))])
    ensures v.RelationValue? ==>
              r.JArr? && |r.items| == |TargetIds(v.target)| &&
              forall i :: 0 <= i < |TargetIds(v.target)| ==> r.items[i] == JObj([("id", JStr(TargetIds(v.target)[i]))])
  {
    match v
    case Plain(x) => ScalarJson(x)
    case RichTextValue(fs) => JArr(SerializeFragments(fs))
    case TitleValue(fs) => JArr(SerializeFragments(fs))
    case NameValue(n) => NameObject(n)
    case NamesValue(ns) => JArr(NameObjects(ns))
    case DateValue(s, e) => JObj([("start", JStr(s)), ("end", OptStr(e))])
    case RelationValue(t) => JArr(IdObjects(TargetIds(t)))
  }

  // ===========================================================================
  // Assignments
  // ===========================================================================

  datatype Assign = Assign(property: Property, value: Value)

  /** The entry an assignment contributes: `name -> {kind: value}`. */
  function AssignEntry(a: Assign): (string, J) {
    (a.property.name, JObj([(KindName(a.property.kind), SerializeValue(a.value))]))
  }

  /** `{name: {kind: value}}`: the one key is the column name. */
  function SerializeAssign(a: Assign): (r: J)
    ensures r.JObj? && Dicts.Keys(r.fields) == {a.property.name}
    ensures Dicts.Get(r.fields, a.property.name) ==
              Some(JObj([(KindName(a.property.kind), SerializeValue(a.value))]))
  {
    JObj([AssignEntry(a)])
  }

  function AssignEntries(assigns: seq<Assign>): (r: seq<(string, J)>)
    ensures |r| == |assigns|
    ensures forall i :: 0 <= i < |assigns| ==> r[i] == AssignEntry(assigns[i])
  {
    if assigns == [] then [] else [AssignEntry(assigns[0])] + AssignEntries(assigns[1..])
  }

  /** No later assignment in the list writes the same property name. */
  predicate LastAssignOf(assigns: seq<Assign>, i: int)
    requires 0 <= i < |assigns|
  {
    forall l :: i < l < |assigns| ==> assigns[l].property.name != assigns[i].property.name
  }

  /** The `AssignList` serialiser: every assignment's one-entry object is merged
      into the accumulated object in list order. */
  method SerializeAssignList(assigns: seq<Assign>) returns (j: J)
    ensures j.JObj?
    ensures Dicts.DistinctKeys(j.fields)
    ensures forall k :: k in Dicts.Keys(j.fields) <==>
              exists i :: 0 <= i < |assigns| && assigns[i].property.name == k
    ensures forall i :: 0 <= i < |assigns| && LastAssignOf(assigns, i) ==>
              Dicts.Get(j.fields, assigns[i].property.name) == Some(AssignEntry(assigns[i]).1)
  {
    var data: Dicts.Dict<string, J> := [];
    var n := 0;
    while n < |assigns|
      invariant 0 <= n <= |assigns|
      invariant data == Dicts.FromPairs(AssignEntries(assigns[..n]))
    {
      var entry := AssignEntry(assigns[n]);
      AssignEntriesSnoc(assigns, n);
      data := Dicts.Put(data, entry.0, entry.1);
      n := n + 1;
    }
    assert assigns[..n] == assigns;
    MergedAssignKeys(assigns);
    MergedAssignLastWins(assigns);
    j := JObj(data);
  }

  /** Extending a prefix of the list by one assignment extends its entries
      by that assignment's entry. */
  lemma AssignEntriesSnoc(assigns: seq<Assign>, n: nat)
    requires n < |assigns|
    ensures AssignEntries(assigns[..n + 1]) == AssignEntries(assigns[..n]) + [AssignEntry(assigns[n])]
  {
    var e := AssignEntries(assigns[..n + 1]);
    assert e[..n] == AssignEntries(assigns[..n]);
  }

  /** The merged entries of an assignment list have no repeated key and a
      key per assigned column. */
  lemma MergedAssignKeys(assigns: seq<Assign>)
    ensures Dicts.DistinctKeys(Dicts.FromPairs(AssignEntries(assigns)))
    ensures forall k :: k in Dicts.Keys(Dicts.FromPairs(AssignEntries(assigns))) <==>
              exists i :: 0 <= i < |assigns| && assigns[i].property.name == k
  {
    var es := AssignEntries(assigns);
    Dicts.FromPairsDistinctKeys(es);
    forall k ensures k in Dicts.Keys(Dicts.FromPairs(es)) <==>
                     exists i :: 0 <= i < |assigns| && assigns[i].property.name == k {
      Dicts.KeysIndex(es, k);
      if exists i :: 0 <= i < |assigns| && assigns[i].property.name == k {
        var i :| 0 <= i < |assigns| && assigns[i].property.name == k;
        assert es[i].0 == k;
      }
    }
  }

  /** In the merged entries each column's last assignment wins. */
  lemma MergedAssignLastWins(assigns: seq<Assign>)
    ensures forall i :: 0 <= i < |assigns| && LastAssignOf(assigns, i) ==>
              Dicts.Get(Dicts.FromPairs(AssignEntries(assigns)), assigns[i].property.name) == Some(AssignEntry(assigns[i]).1)
  {
    var es := AssignEntries(assigns);
    forall i | 0 <= i < |assigns| && LastAssignOf(assigns, i)
      ensures Dicts.Get(Dicts.FromPairs(es), assigns[i].property.name) == Some(AssignEntry(assigns[i]).1)
    {
      assert Dicts.LastFor(es, i) by {
        forall l | i < l < |es| ensures es[l].0 != es[i].0 {
          assert es[l].0 == assigns[l].property.name;
        }
      }
      Dicts.FromPairsLastWins(es, i);
    }
  }

  // ===========================================================================
  // Assignment builders of the property descriptors
  // ===========================================================================

  function CheckboxAssign(p: Property, checked: bool): Assign
    requires p.kind == CheckboxKind
  {
    Assign(p, Plain(Bool(checked)))
  }

  function DateAssign(p: Property, start: string, end: Option<string>): Assign
    requires p.kind == DateKind
  {
    Assign(p, DateValue(start, end))
  }

  function MultiSelectAssign(p: Property, names: seq<string>): Assign
    requires p.kind == MultiSelectKind
  {
    Assign(p, NamesValue(names))
  }

  function NumberAssign(p: Property, n: int): Assign
    requires p.kind == NumberKind
  {
    Assign(p, Plain(Int(n)))
  }

  function RelationAssign(p: Property, target: RelationTarget): Assign
    requires p.kind == RelationKind
  {
    Assign(p, RelationValue(target))
  }

  /** `Select.assign` and `Status.assign`. */
  function NameAssign(p: Property, name: string): Assign
    requires p.kind == SelectKind || p.kind == StatusKind
  {
    Assign(p, NameValue(name))
  }

  /** An argument of `Title.assign` / `RichText.assign`: text or a mention. */
  datatype Piece = PieceText(text: string) | PieceMention(mention: Mention)

  /** A single piece, or a list of pieces. */
  datatype TextArgument = OnePiece(piece: Piece) | ManyPieces(pieces: seq<Piece>)

  function Pieces(arg: TextArgument): seq<Piece> {
    match arg
    case OnePiece(p) => [p]
    case ManyPieces(ps) => ps
  }

  /** Text becomes a `Text` fragment; a mention is passed through. */
  function ToFragment(piece: Piece): Fragment {
    match piece
    case PieceText(s) => Text(s)
    case PieceMention(m) => Mentioned(m)
  }

  /** `Title.assign` and `RichText.assign`: wrap a single piece in a list and
      turn every string into a `Text` fragment, in order. */
  method TextAssign(p: Property, arg: TextArgument) returns (a: Assign)
    requires p.kind == TitleKind || p.kind == RichTextKind
    ensures a.property == p
    ensures p.kind == TitleKind ==> a.value.TitleValue?
    ensures p.kind == RichTextKind ==> a.value.RichTextValue?
    ensures |a.value.fragments| == |Pieces(arg)|
    ensures forall i :: 0 <= i < |Pieces(arg)| ==>
              a.value.fragments[i] == ToFragment(Pieces(arg)[i])
    ensures forall i :: 0 <= i < |Pieces(arg)| && Pieces(arg)[i].PieceMention? ==>
              a.value.fragments[i] == Mentioned(Pieces(arg)[i].mention)
    ensures SerializeValue(a.value).JArr? && |SerializeValue(a.value).items| == |Pieces(arg)|
    ensures forall i :: 0 <= i < |Pieces(arg)| && Pieces(arg)[i].PieceText? ==>
              SerializeValue(a.value).items[i] == JObj([("text", JObj([("content", JStr(Pieces(arg)[i].text))]))])
  {
    var title := Pieces(arg);
    var values: seq<Fragment> := [];
    var n := 0;
    while n < |title|
      invariant 0 <= n <= |title|
      invariant |values| == n
      invariant forall i :: 0 <= i < n ==> values[i] == ToFragment(title[i])
    {
      var fragment := title[n];
      if fragment.PieceText? {
        values := values + [Text(fragment.text)];
      } else {
        values := values + [Mentioned(fragment.mention)];
      }
      n := n + 1;
    }
    if p.kind == TitleKind {
      a := Assign(p, TitleValue(values));
    } else {
      a := Assign(p, RichTextValue(values));
    }
  }
}

=== FILE: json.dfy ===
/** JSON values as the wire protocol carries them. Objects keep their keys
    in insertion order, as the Python dictionaries they are built from do. */
module Json {
  import opened Wrappers
  import Dicts

  datatype J =
    | JNull
    | JBool(b: bool)
    | JInt(i: int)
    | JStr(s: string)
    | JArr(items: seq<J>)
    | JObj(fields: Dicts.Dict<string, J>)

  /** An optional string: `None` is rendered as `null`. */
  function OptStr(o: Option<string>): J {
    match o
    case Some(s) => JStr(s)
    case None => JNull
  }

  /** The member `key` of an object; nothing for other values. */
  function Member(j: J, key: string): Option<J> {
    if j.JObj? then Dicts.Get(j.fields, key) else None
  }
}

=== FILE: schema.dfy ===
/** The backend's object model as the client decodes it: rich text, parents,
    files and icons, page property values, pages, database columns,
    databases and paginated query results, with the typed accessors that
    read them. */
module Schema {
  import opened Wrappers
  import opened Json
  import Dicts

  /** What the accessors and helpers of this module fail with. */
  datatype Failure =
    | MissingProperty(name: string)                              // `properties[name]` raises KeyError
    | WrongVariant(name: string, expected: string, found: string) // a typed accessor's assertion fails
    | NoPlainTextAttribute(index: nat)                           // a fragment has no `plain_text`
    | PlainTextNotText(index: nat)                               // `"".join` meets a `None`
    | WrongFormulaType(expected: string, found: string)          // an `as_*` assertion fails
    | EmptyResults                                               // `first()` on an empty list
    | IndexOutOfRange(position: int)                              // `results[index]` raises IndexError

  // ===========================================================================
  // Rich text
  // ===========================================================================

  /** Text content with an optional link; URLs and dates are their text. */
  datatype TextObject = TextObject(content: string, link: Option<string>)

  datatype Annotations = Annotations(
    bold: bool, italic: bool, strikethrough: bool, underline: bool, code: bool, color: string)

  datatype DateObject = DateObject(start: string, end: Option<string>, timeZone: J)

  datatype MentionObject =
    | MentionDatabaseObject(databaseId: string)
    | MentionDateObject(date: DateObject)
    | MentionLinkPreviewObject(linkUrl: string)
    | MentionPageObject(pageId: string)
    | MentionTemplateObject(template: J)
    | MentionUserObject(userId: string)

  /** One fragment of rich text. `SimpleText` is what the block builder makes;
      the other three are what the backend returns. */
  datatype RichTextFragment =
    | SimpleText(text: TextObject)
    | TextFragment(text: TextObject, textAnnotations: Option<Annotations>,
                   textPlainText: Option<string>, href: Option<string>)
    | MentionFragment(mention: MentionObject, annotations: Annotations,
                      plainText: string, href: Option<string>)
    | EquationFragment(expression: string, annotations: Annotations,
                       plainText: string, href: Option<string>)

  type RichText = seq<RichTextFragment>

  function SerializeTextObject(t: TextObject): J {
    JObj([("content", JStr(t.content)),
          ("link", match t.link case Some(u) => JObj([("url", JStr(u))]) case None => JNull)])
  }

  function SerializeAnnotations(a: Annotations): J {
    JObj([("bold", JBool(a.bold)), ("italic", JBool(a.italic)),
          ("strikethrough", JBool(a.strikethrough)), ("underline", JBool(a.underline)),
          ("code", JBool(a.code)), ("color", JStr(a.color))])
  }

  function SerializeDateObject(d: DateObject): J {
    JObj([("start", JStr(d.start)), ("end", OptStr(d.end)), ("time_zone", d.timeZone)])
  }

  function SerializeMentionObject(m: MentionObject): J {
    match m
    case MentionDatabaseObject(id) =>
      JObj([("type", JStr("database")), ("database", JObj([("id", JStr(id))]))])
    case MentionDateObject(d) =>
      JObj([("type", JStr("date")), ("date", SerializeDateObject(d))])
    case MentionLinkPreviewObject(u) =>
      JObj([("type", JStr("link_preview")), ("link", JObj([("url", JStr(u))]))])
    case MentionPageObject(id) =>
      JObj([("type", JStr("page")), ("page", JObj([("id", JStr(id))]))])
    case MentionTemplateObject(t) =>
      JObj([("type", JStr("template_mention")), ("template_mention", t)])
    case MentionUserObject(id) =>
      JObj([("type", JStr("user")), ("user", JObj([("object", JStr("user")), ("id", JStr(id))]))])
  }

  /** A simple-text fragment serialises to its text object alone. */
  function SerializeSimpleText(t: TextObject): J {
    JObj([("text", SerializeTextObject(t))])
  }

  function SerializeFragment(f: RichTextFragment): J {
    match f
    case SimpleText(t) => SerializeSimpleText(t)
    case TextFragment(t, a, pt, h) =>
      JObj([("type", JStr("text")), ("text", SerializeTextObject(t)),
            ("annotations", match a case Some(x) => SerializeAnnotations(x) case None => JNull),
            ("plain_text", OptStr(pt)), ("href", OptStr(h))])
    case MentionFragment(m, a, pt, h) =>
      JObj([("type", JStr("mention")), ("mention", SerializeMentionObject(m)),
            ("annotations", SerializeAnnotations(a)),
            ("plain_text", JStr(pt)), ("href", OptStr(h))])
    case EquationFragment(e, a, pt, h) =>
      JObj([("type", JStr("equation")), ("equation", JObj([("expression", JStr(e))])),
            ("annotations", SerializeAnnotations(a)),
            ("plain_text", JStr(pt)), ("href", OptStr(h))])
  }

  /** Rich text serialises fragment by fragment, in order. */
  function SerializeRichText(rt: RichText): (r: seq<J>)
    ensures |r| == |rt|
    ensures forall i :: 0 <= i < |rt| ==> r[i] == SerializeFragment(rt[i])
  {
    if rt == [] then [] else [SerializeFragment(rt[0])] + SerializeRichText(rt[1..])
  }

  /** The `plain_text` attribute of a fragment: simple-text fragments have
      none at all, and a text fragment's may be `None`. */
  function FragmentPlainText(f: RichTextFragment): Option<Option<string>> {
    match f
    case SimpleText(_) => None
    case TextFragment(_, _, pt, _) => Some(pt)
    case MentionFragment(_, _, pt, _) => Some(Some(pt))
    case EquationFragment(_, _, pt, _) => Some(Some(pt))
  }

  /** Whether the fragment contributes text to `plain_text()`. */
  predicate HasPlainText(f: RichTextFragment) {
    FragmentPlainText(f).Some? && FragmentPlainText(f).value.Some?
  }

  /** The text a fragment contributes. */
  function PlainTextOf(f: RichTextFragment): string
    requires HasPlainText(f)
  {
    FragmentPlainText(f).value.value
  }

  /** Reads every fragment's `plain_text` attribute, as the generator fed to
      `join` does: the first fragment without the attribute raises. */
  function CollectPlainTexts(rt: RichText): (r: Result<seq<Option<string>>, Failure>)
    ensures r.Ok? <==> forall i :: 0 <= i < |rt| ==> FragmentPlainText(rt[i]).Some?
    ensures r.Ok? ==> |r.value| == |rt|
    ensures r.Ok? ==> forall i :: 0 <= i < |rt| ==> r.value[i] == FragmentPlainText(rt[i]).value
    ensures r.Err? ==> r.error.NoPlainTextAttribute? && r.error.index < |rt|
    ensures r.Err? ==> FragmentPlainText(rt[r.error.index]).None?
    ensures r.Err? ==> forall i :: 0 <= i < r.error.index ==> FragmentPlainText(rt[i]).Some?
  {
    if rt == [] then Ok([])
    else match FragmentPlainText(rt[0])
      case None => Err(NoPlainTextAttribute(0))
      case Some(pt) =>
        match CollectPlainTexts(rt[1..])
        case Ok(rest) => Ok([pt] + rest)
        case Err(e) => Err(NoPlainTextAttribute(e.index + 1))
  }

  /** `"".join(parts)`: the first `None` raises. */
  function Join(parts: seq<Option<string>>): (r: Result<string, Failure>)
    ensures r.Ok? <==> forall i :: 0 <= i < |parts| ==> parts[i].Some?
    ensures r.Err? ==> r.error.PlainTextNotText? && r.error.index < |parts|
    ensures r.Err? ==> parts[r.error.index].None?
    ensures r.Err? ==> forall i :: 0 <= i < r.error.index ==> parts[i].Some?
  {
    if parts == [] then Ok("")
    else match parts[0]
      case None => Err(PlainTextNotText(0))
      case Some(s) =>
        match Join(parts[1..])
        case Ok(rest) => Ok(s + rest)
        case Err(e) => Err(PlainTextNotText(e.index + 1))
  }

  /** `"".join(fragment.plain_text for fragment in rich_text)`. */
  function PlainText(rt: RichText): (r: Result<string, Failure>)
    ensures r.Ok? <==> forall i :: 0 <= i < |rt| ==> HasPlainText(rt[i])
  {
    match CollectPlainTexts(rt)
    case Err(e) => Err(e)
    case Ok(parts) => Join(parts)
  }

  // ===========================================================================
  // Parents
  // ===========================================================================

  datatype Parent =
    | DatabaseParent(databaseId: string)
    | PageParent(pageId: string)
    | BlockParent(blockId: string)
    | WorkspaceParent(workspace: bool)

  /** `Parent.id()`: the database, page or block id; nothing for the workspace. */
  function ParentId(p: Parent): (r: Option<string>)
    ensures r.None? <==> p.WorkspaceParent?
  {
    match p
    case DatabaseParent(id) => Some(id)
    case PageParent(id) => Some(id)
    case BlockParent(id) => Some(id)
    case WorkspaceParent(_) => None
  }

  /** The discriminator of a parent. */
  function ParentTag(p: Parent): string {
    match p
    case DatabaseParent(_) => "database_id"
    case PageParent(_) => "page_id"
    case BlockParent(_) => "block_id"
    case WorkspaceParent(_) => "workspace"
  }

  /** The JSON of a parent: its tag under `"type"`, its payload under the
      tag. `DecodeParent` reads the parent back. */
  function SerializeParent(p: Parent): (r: J)
    ensures r.JObj? && |r.fields| == 2
    ensures DecodeParent(r) == Ok(p)
  {
    var payload := match p
      case WorkspaceParent(w) => JBool(w)
      case _ => JStr(ParentId(p).value);
    var j := JObj([("type", JStr(ParentTag(p))), (ParentTag(p), payload)]);
    assert Member(j, "type") == Some(JStr(ParentTag(p)));
    assert j.fields[1..] == [(ParentTag(p), payload)];
    assert Member(j, ParentTag(p)) == Some(payload) by {
      if ParentTag(p) != "type" {
        assert Dicts.Get(j.fields[1..], ParentTag(p)) == Some(payload);
      }
    }
    j
  }

  datatype DecodeError = NotAnObject | MissingField(field: string) | WrongType(field: string) | UnknownTag(tag: string)

  function StringMember(j: J, field: string): Result<string, DecodeError> {
    match Member(j, field)
    case None => Err(MissingField(field))
    case Some(JStr(s)) => Ok(s)
    case Some(_) => Err(WrongType(field))
  }

  function BoolMember(j: J, field: string): Result<bool, DecodeError> {
    match Member(j, field)
    case None => Err(MissingField(field))
    case Some(JBool(b)) => Ok(b)
    case Some(_) => Err(WrongType(field))
  }

  /** Tag dispatch: read `"type"`, then the field the tag names. */
  function DecodeParent(j: J): (r: Result<Parent, DecodeError>)
    ensures !j.JObj? ==> r == Err(NotAnObject)
    ensures r.Ok? ==> Member(j, "type") == Some(JStr(ParentTag(r.value)))
    ensures r.Ok? && r.value.WorkspaceParent? ==> Member(j, "workspace") == Some(JBool(r.value.workspace))
    ensures r.Ok? && !r.value.WorkspaceParent? ==> Member(j, ParentTag(r.value)) == Some(JStr(ParentId(r.value).value))
  {
    if !j.JObj? then Err(NotAnObject)
    else match StringMember(j, "type")
      case Err(e) => Err(e)
      case Ok(tag) =>
        if tag == "database_id" then
          (match StringMember(j, tag) case Ok(id) => Ok(DatabaseParent(id)) case Err(e) => Err(e))
        else if tag == "page_id" then
          (match StringMember(j, tag) case Ok(id) => Ok(PageParent(id)) case Err(e) => Err(e))
        else if tag == "block_id" then
          (match StringMember(j, tag) case Ok(id) => Ok(BlockParent(id)) case Err(e) => Err(e))
        else if tag == "workspace" then
          (match BoolMember(j, tag) case Ok(w) => Ok(WorkspaceParent(w)) case Err(e) => Err(e))
        else Err(UnknownTag(tag))
  }

  // ===========================================================================
  // Files, icons, users and the property-value payloads
  // ===========================================================================

  /** A file without a name: hosted elsewhere, or by the backend with an expiry. */
  datatype UnnamedFile = ExternalFile(url: string) | InternalFile(url: string, expiryTime: string)

  datatype Icon = FileIcon(file: UnnamedFile) | Emoji(emoji: string)

  function SerializeUnnamedFile(f: UnnamedFile): J {
    match f
    case ExternalFile(u) => JObj([("type", JStr("external")), ("external", JObj([("url", JStr(u))]))])
    case InternalFile(u, t) =>
      JObj([("type", JStr("file")), ("file", JObj([("url", JStr(u)), ("expiry_time", JStr(t))]))])
  }

  function SerializeIcon(i: Icon): J {
    match i
    case FileIcon(f) => SerializeUnnamedFile(f)
    case Emoji(e) => JObj([("type", JStr("emoji")), ("emoji", JStr(e))])
  }

  datatype SelectObject = SelectObject(color: string, id: string, name: string)

  datatype UniqueIdObject = UniqueIdObject(number: int, prefix: Option<string>)

  datatype VerificationObject = VerificationObject(state: string, verifiedBy: Option<string>, date: DateObject)

  /** The result of a formula, tagged by its type. */
  datatype FormulaObject =
    | BooleanFormula(boolean: Option<bool>)
    | NumberFormula(number: Option<int>)
    | StringFormula(str: Option<string>)
    | DateFormula(date: Option<string>)

  function FormulaTag(f: FormulaObject): string {
    match f
    case BooleanFormula(_) => "boolean"
    case NumberFormula(_) => "number"
    case StringFormula(_) => "string"
    case DateFormula(_) => "date"
  }

  /** The result of a rollup: a date or a number. */
  datatype RollupObject = RollupDate(date: Option<string>) | RollupNumber(number: Option<int>)

  // ===========================================================================
  // Page property values
  // ===========================================================================

  datatype PropertyValue =
    | CheckboxValue(id: string, checkbox: bool)
    | CreatedByValue(id: string, createdBy: string)
    | CreatedTimeValue(id: string, createdTime: string)
    | DateValue(id: string, date: Option<DateObject>)
    | EmailValue(id: string, email: Option<string>)
    | FilesValue(id: string, files: seq<UnnamedFile>)
    | FormulaValue(id: string, formula: FormulaObject)
    | LastEditedByValue(id: string, lastEditedBy: string)
    | LastEditedTimeValue(id: string, lastEditedTime: string)
    | MultiSelectValue(id: string, multiSelect: seq<SelectObject>)
    | NumberValue(id: string, number: Option<int>)
    | PeopleValue(id: string, people: seq<string>)
    | PhoneNumberValue(id: string, phoneNumber: Option<string>)
    | RelationValue(id: string, hasMore: bool, relation: seq<string>)
    | RichTextValue(id: string, richText: RichText)
    | RollupValue(id: string, rollup: RollupObject)
    | SelectValue(id: string, select: Option<SelectObject>)
    | StatusValue(id: string, status: SelectObject)
    | TitleValue(id: string, title: RichText)
    | UrlValue(id: string, url: Option<string>)
    | UniqueIdValue(id: string, uniqueId: UniqueIdObject)
    | VerificationValue(id: string, verification: VerificationObject)

  /** The discriminator of a property value. */
  function ValueTag(v: PropertyValue): string {
    match v
    case CheckboxValue(_, _) => "checkbox"
    case CreatedByValue(_, _) => "created_by"
    case CreatedTimeValue(_, _) => "created_time"
    case DateValue(_, _) => "date"
    case EmailValue(_, _) => "email"
    case FilesValue(_, _) => "files"
    case FormulaValue(_, _) => "formula"
    case LastEditedByValue(_, _) => "last_edited_by"
    case LastEditedTimeValue(_, _) => "last_edited_time"
    case MultiSelectValue(_, _) => "multi_select"
    case NumberValue(_, _) => "number"
    case PeopleValue(_, _) => "people"
    case PhoneNumberValue(_, _) => "phone_number"
    case RelationValue(_, _, _) => "relation"
    case RichTextValue(_, _) => "rich_text"
    case RollupValue(_, _) => "rollup"
    case SelectValue(_, _) => "select"
    case StatusValue(_, _) => "status"
    case TitleValue(_, _) => "title"
    case UrlValue(_, _) => "url"
    case UniqueIdValue(_, _) => "unique_id"
    case VerificationValue(_, _) => "verification"
  }

  /** `DateValue.start()`: nothing when the date is absent. */
  function DateStart(v: PropertyValue): (r: Option<string>)
    requires v.DateValue?
    ensures r.Some? <==> v.date.Some?
    ensures r.Some? ==> r.value == v.date.value.start
  {
    match v.date
    case Some(d) => Some(d.start)
    case None => None
  }

  /** `DateValue.end()`: nothing when the date is absent or open-ended. */
  function DateEnd(v: PropertyValue): (r: Option<string>)
    requires v.DateValue?
    ensures v.date.None? ==> r.None?
    ensures v.date.Some? ==> r == v.date.value.end
  {
    match v.date
    case Some(d) => d.end
    case None => None
  }

  /** `FormulaValue.as_boolean()`. */
  function FormulaAsBoolean(v: PropertyValue): (r: Result<Option<bool>, Failure>)
    requires v.FormulaValue?
    ensures r.Ok? <==> v.formula.BooleanFormula?
    ensures r.Ok? ==> r.value == v.formula.boolean
  {
    if v.formula.BooleanFormula? then Ok(v.formula.boolean)
    else Err(WrongFormulaType("boolean", FormulaTag(v.formula)))
  }

  /** `FormulaValue.as_number()`. */
  function FormulaAsNumber(v: PropertyValue): (r: Result<Option<int>, Failure>)
    requires v.FormulaValue?
    ensures r.Ok? <==> v.formula.NumberFormula?
    ensures r.Ok? ==> r.value == v.formula.number
  {
    if v.formula.NumberFormula? then Ok(v.formula.number)
    else Err(WrongFormulaType("number", FormulaTag(v.formula)))
  }

  /** `FormulaValue.as_string()`. */
  function FormulaAsString(v: PropertyValue): (r: Result<Option<string>, Failure>)
    requires v.FormulaValue?
    ensures r.Ok? <==> v.formula.StringFormula?
    ensures r.Ok? ==> r.value == v.formula.str
  {
    if v.formula.StringFormula? then Ok(v.formula.str)
    else Err(WrongFormulaType("string", FormulaTag(v.formula)))
  }

  /** `FormulaValue.as_date()`. */
  function FormulaAsDate(v: PropertyValue): (r: Result<Option<string>, Failure>)
    requires v.FormulaValue?
    ensures r.Ok? <==> v.formula.DateFormula?
    ensures r.Ok? ==> r.value == v.formula.date
  {
    if v.formula.DateFormula? then Ok(v.formula.date)
    else Err(WrongFormulaType("date", FormulaTag(v.formula)))
  }

  /** `RollupValue.as_number()`. */
  function RollupAsNumber(v: PropertyValue): (r: Result<Option<int>, Failure>)
    requires v.RollupValue?
    ensures r.Ok? <==> v.rollup.RollupNumber?
    ensures r.Ok? ==> r.value == v.rollup.number
  {
    if v.rollup.RollupNumber? then Ok(v.rollup.number) else Err(WrongFormulaType("number", "date"))
  }

  /** `RollupValue.as_date()`. */
  function RollupAsDate(v: PropertyValue): (r: Result<Option<string>, Failure>)
    requires v.RollupValue?
    ensures r.Ok? <==> v.rollup.RollupDate?
    ensures r.Ok? ==> r.value == v.rollup.date
  {
    if v.rollup.RollupDate? then Ok(v.rollup.date) else Err(WrongFormulaType("date", "number"))
  }

  /** `StatusValue.not_started()`. */
  predicate IsNotStarted(v: PropertyValue)
    requires v.StatusValue?
  {
    v.status.name == "Not started"
  }

  /** `StatusValue.in_progress()`. */
  predicate IsInProgress(v: PropertyValue)
    requires v.StatusValue?
  {
    v.status.name == "In progress"
  }

  /** `StatusValue.done()`. */
  predicate IsDone(v: PropertyValue)
    requires v.StatusValue?
  {
    v.status.name == "Done"
  }

  /** `TitleValue.plain_text()`: the fragments' text joined in order. */
  function TitlePlainText(v: PropertyValue): (r: Result<string, Failure>)
    requires v.TitleValue?
    ensures r.Ok? <==> forall i :: 0 <= i < |v.title| ==> HasPlainText(v.title[i])
  {
    PlainText(v.title)
  }

  /** Iterating a pydantic root model yields its fields as (name, value)
      pairs, not the items of the wrapped list. */
  function IterateRootModel(rt: RichText): seq<(string, RichText)> {
    [("root", rt)]
  }

  /** `RichTextValue.plain_text()` as the source has it: it iterates the
      rich-text model itself, whose only item is the pair ("root", list),
      and a pair has no `plain_text` attribute. */
  function RichTextPlainTextAsWritten(v: PropertyValue): (r: Result<string, Failure>)
    requires v.RichTextValue?
    ensures r.Err? && r.error.NoPlainTextAttribute?
  {
    var items := IterateRootModel(v.richText);
    // The join of no items would be the empty string, but iterating the
    // model always yields its one ("root", list) pair, so that branch is
    // never taken.
    if |items| > 0 then Err(NoPlainTextAttribute(0)) else Ok("")
  }

  /** `RichTextValue.plain_text()` as intended: the fragments' text joined in
      order, exactly as for titles. */
  function RichTextPlainText(v: PropertyValue): (r: Result<string, Failure>)
    requires v.RichTextValue?
    ensures r.Ok? <==> forall i :: 0 <= i < |v.richText| ==> HasPlainText(v.richText[i])
  {
    PlainText(v.richText)
  }

  // ===========================================================================
  // Typed lookup
  // ===========================================================================

  /** `properties[name]` followed by the accessor's variant assertion. */
  function Typed<V>(props: map<string, V>, name: string, tag: string, tagOf: V -> string): (r: Result<V, Failure>)
    ensures r.Ok? <==> name in props && tagOf(props[name]) == tag
    ensures r.Ok? ==> r.value == props[name]
    ensures r.Err? && name !in props ==> r.error == MissingProperty(name)
    ensures r.Err? && name in props ==> r.error == WrongVariant(name, tag, tagOf(props[name]))
  {
    if name !in props then Err(MissingProperty(name))
    else if tagOf(props[name]) != tag then Err(WrongVariant(name, tag, tagOf(props[name])))
    else Ok(props[name])
  }

  // ===========================================================================
  // Pages
  // ===========================================================================

  datatype Page = Page(
    id: string,
    createdTime: string,
    lastEditedTime: string,
    createdBy: string,
    lastEditedBy: string,
    cover: Option<UnnamedFile>,
    icon: Option<Icon>,
    parent: Parent,
    archived: bool,
    properties: map<string, PropertyValue>,
    url: string,
    publicUrl: Option<string>)

  /** Every typed accessor of a page: `checkbox`, `date`, `status`, `title`,
      `relation`, ... each reads the named property and insists on its tag. */
  function PageProperty(page: Page, name: string, tag: string): Result<PropertyValue, Failure> {
    Typed(page.properties, name, tag, ValueTag)
  }

  /** Default property names of the accessors that have one. */
  const DefaultDate: string := "Date"
  const DefaultStatus: string := "Status"
  const DefaultTitle: string := "Name"

  function PageCheckbox(page: Page, name: string): Result<PropertyValue, Failure> {
    PageProperty(page, name, "checkbox")
  }

  function PageDate(page: Page, name: string): Result<PropertyValue, Failure> {
    PageProperty(page, name, "date")
  }

  function PageRelation(page: Page, name: string): Result<PropertyValue, Failure> {
    PageProperty(page, name, "relation")
  }

  function PageStatus(page: Page, name: string): Result<PropertyValue, Failure> {
    PageProperty(page, name, "status")
  }

  function PageTitle(page: Page, name: string): Result<PropertyValue, Failure> {
    PageProperty(page, name, "title")
  }

  /** `Page.name()`: the plain text of the title property called "Name". */
  function PageName(page: Page): (r: Result<string, Failure>)
    ensures DefaultTitle !in page.properties ==> r == Err(MissingProperty(DefaultTitle))
    ensures r.Ok? ==>
              DefaultTitle in page.properties && page.properties[DefaultTitle].TitleValue? &&
              r == PlainText(page.properties[DefaultTitle].title)
  {
    match PageTitle(page, DefaultTitle)
    case Err(e) => Err(e)
    case Ok(t) => TitlePlainText(t)
  }

  /** `Page.checkboxes()`: the checkbox-typed properties of the page. */
  method Checkboxes(page: Page) returns (props: map<string, PropertyValue>)
    ensures forall name :: name in props <==> name in page.properties && page.properties[name].CheckboxValue?
    ensures forall name :: name in props ==> props[name] == page.properties[name]
    ensures forall name :: name in props <==> PageCheckbox(page, name).Ok?
  {
    props := map[];
    var todo := page.properties.Keys;
    while todo != {}
      invariant todo <= page.properties.Keys
      invariant forall name :: name in props <==>
        name in page.properties && name !in todo && page.properties[name].CheckboxValue?
      invariant forall name :: name in props ==> props[name] == page.properties[name]
      decreases todo
    {
      var name :| name in todo;
      var prop := page.properties[name];
      if prop.CheckboxValue? {
        props := props[name := prop];
      }
      todo := todo - {name};
    }
  }

  // ===========================================================================
  // Databases
  // ===========================================================================

  datatype RollupConfig = RollupConfig(
    aggregation: string, relationPropertyId: string, relationPropertyName: string,
    rollupPropertyId: string, rollupPropertyName: string)

  /** A database column: its configuration, tagged by the column type. */
  datatype DatabaseProperty =
    | CheckboxColumn(id: string, name: string)
    | CreatedByColumn(id: string, name: string)
    | CreatedTimeColumn(id: string, name: string)
    | DateColumn(id: string, name: string)
    | EmailColumn(id: string, name: string)
    | FilesColumn(id: string, name: string)
    | FormulaColumn(id: string, name: string, expression: string)
    | LastEditedByColumn(id: string, name: string)
    | LastEditedTimeColumn(id: string, name: string)
    | MultiSelectColumn(id: string, name: string, options: seq<SelectObject>)
    | NumberColumn(id: string, name: string, format: string)
    | PeopleColumn(id: string, name: string)
    | PhoneNumberColumn(id: string, name: string)
    | RelationColumn(id: string, name: string, relationType: string, databaseId: string)
    | RichTextColumn(id: string, name: string)
    | RollupColumn(id: string, name: string, rollup: RollupConfig)
    | SelectColumn(id: string, name: string, options: seq<SelectObject>)
    | StatusColumn(id: string, name: string, options: seq<SelectObject>)
    | TitleColumn(id: string, name: string)
    | UrlColumn(id: string, name: string)

  function ColumnTag(c: DatabaseProperty): string {
    match c
    case CheckboxColumn(_, _) => "checkbox"
    case CreatedByColumn(_, _) => "created_by"
    case CreatedTimeColumn(_, _) => "created_time"
    case DateColumn(_, _) => "date"
    case EmailColumn(_, _) => "email"
    case FilesColumn(_, _) => "files"
    case FormulaColumn(_, _, _) => "formula"
    case LastEditedByColumn(_, _) => "last_edited_by"
    case LastEditedTimeColumn(_, _) => "last_edited_time"
    case MultiSelectColumn(_, _, _) => "multi_select"
    case NumberColumn(_, _, _) => "number"
    case PeopleColumn(_, _) => "people"
    case PhoneNumberColumn(_, _) => "phone_number"
    case RelationColumn(_, _, _, _) => "relation"
    case RichTextColumn(_, _) => "rich_text"
    case RollupColumn(_, _, _) => "rollup"
    case SelectColumn(_, _, _) => "select"
    case StatusColumn(_, _, _) => "status"
    case TitleColumn(_, _) => "title"
    case UrlColumn(_, _) => "url"
  }

  datatype Database = Database(
    id: string,
    createdTime: string,
    createdBy: string,
    lastEditedTime: string,
    lastEditedBy: string,
    title: RichText,
    description: RichText,
    icon: Option<Icon>,
    cover: Option<UnnamedFile>,
    properties: map<string, DatabaseProperty>,
    parent: Parent,
    url: string,
    archived: bool,
    isInline: bool,
    publicUrl: Option<string>)

  /** Every typed accessor of a database schema. */
  function DatabaseColumn(db: Database, name: string, tag: string): Result<DatabaseProperty, Failure> {
    Typed(db.properties, name, tag, ColumnTag)
  }

  // ===========================================================================
  // Query results
  // ===========================================================================

  /** One page of a paginated listing. */
  datatype QueryResult<T> = QueryResult(
    resultType: string, results: seq<T>, nextCursor: Option<string>, hasMore: bool, requestId: string)

  /** `count()` and `len()`. */
  function Count<T>(q: QueryResult<T>): (r: nat)
    ensures r > 0 <==> First(q).Ok?
    ensures forall i :: At(q, i).Ok? <==> -(r as int) <= i < r
  {
    |q.results|
  }

  /** `q[index]`, with Python's negative indices counting from the end. */
  function At<T>(q: QueryResult<T>, index: int): (r: Result<T, Failure>)
    ensures r.Ok? <==> -|q.results| <= index < |q.results|
    ensures 0 <= index < |q.results| ==> r == Ok(q.results[index])
    ensures -|q.results| <= index < 0 ==> r == Ok(q.results[|q.results| + index])
  {
    if 0 <= index < |q.results| then Ok(q.results[index])
    else if -|q.results| <= index < 0 then Ok(q.results[|q.results| + index])
    else Err(IndexOutOfRange(index))
  }

  /** `first()`: fails on an empty listing. */
  function First<T>(q: QueryResult<T>): (r: Result<T, Failure>)
    ensures r.Ok? <==> |q.results| > 0
    ensures r.Ok? ==> r.value == q.results[0]
    ensures r.Err? ==> r.error == EmptyResults
  {
    if |q.results| >= 1 then Ok(q.results[0]) else Err(EmptyResults)
  }

  /** The results paired with their keys, in order. */
  function KeyedBy<T, K>(results: seq<T>, key: T -> K): (r: seq<(K, T)>)
    ensures |r| == |results|
    ensures forall i :: 0 <= i < |results| ==> r[i] == (key(results[i]), results[i])
  {
    if results == [] then [] else [(key(results[0]), results[0])] + KeyedBy(results[1..], key)
  }

  /** `inverse_map(f)`: `{f(result): result for result in results}`. */
  function InverseMap<T, K(==)>(q: QueryResult<T>, f: T -> K): (r: Dicts.Dict<K, T>)
    ensures Dicts.DistinctKeys(r)
    ensures Dicts.Keys(r) == Dicts.Keys(KeyedBy(q.results, f))
  {
    Dicts.FromPairsDistinctKeys(KeyedBy(q.results, f));
    Dicts.FromPairs(KeyedBy(q.results, f))
  }

  /** `map(f)`: `{result.id: f(result) for result in results}`. */
  function MapById<T, U>(q: QueryResult<T>, idOf: T -> string, f: T -> U): (r: Dicts.Dict<string, U>)
    ensures Dicts.DistinctKeys(r)
    ensures Dicts.Keys(r) == Dicts.Keys(MapPairs(q.results, idOf, f))
  {
    Dicts.FromPairsDistinctKeys(MapPairs(q.results, idOf, f));
    Dicts.FromPairs(MapPairs(q.results, idOf, f))
  }

  function MapPairs<T, U>(results: seq<T>, idOf: T -> string, f: T -> U): (r: seq<(string, U)>)
    ensures |r| == |results|
    ensures forall i :: 0 <= i < |results| ==> r[i] == (idOf(results[i]), f(results[i]))
  {
    if results == [] then [] else [(idOf(results[0]), f(results[0]))] + MapPairs(results[1..], idOf, f)
  }

  /** `by_id()`: the results keyed by their id. */
  function ById<T>(q: QueryResult<T>, idOf: T -> string): (r: Dicts.Dict<string, T>)
    ensures Dicts.DistinctKeys(r)
    ensures forall i :: 0 <= i < |q.results| ==> idOf(q.results[i]) in Dicts.Keys(r)
  {
    KeysOfKeyedBy(q.results, idOf);
    InverseMap(q, idOf)
  }

  /** Every result's key is a key of the pairing. */
  lemma KeysOfKeyedBy<T, K>(results: seq<T>, key: T -> K)
    ensures forall i :: 0 <= i < |results| ==> key(results[i]) in Dicts.Keys(KeyedBy(results, key))
  {
    forall i | 0 <= i < |results| ensures key(results[i]) in Dicts.Keys(KeyedBy(results, key)) {
      Dicts.KeysIndex(KeyedBy(results, key), key(results[i]));
    }
  }

  /** Every page's name, in order; the first page without one fails. */
  function PageNames(pages: seq<Page>): (r: Result<seq<(string, Page)>, Failure>)
    ensures r.Ok? <==> forall i :: 0 <= i < |pages| ==> PageName(pages[i]).Ok?
    ensures r.Ok? ==> |r.value| == |pages|
    ensures r.Ok? ==> forall i :: 0 <= i < |pages| ==> r.value[i] == (PageName(pages[i]).value, pages[i])
  {
    if pages == [] then Ok([])
    else match PageName(pages[0])
      case Err(e) => Err(e)
      case Ok(n) =>
        match PageNames(pages[1..])
        case Err(e) => Err(e)
        case Ok(rest) => Ok([(n, pages[0])] + rest)
  }

  /** `by_name()` over pages: the results keyed by their title text. */
  function ByName(q: QueryResult<Page>): (r: Result<Dicts.Dict<string, Page>, Failure>)
    ensures r.Ok? <==> forall i :: 0 <= i < |q.results| ==> PageName(q.results[i]).Ok?
    ensures r.Ok? ==> Dicts.DistinctKeys(r.value)
  {
    match PageNames(q.results)
    case Err(e) => Err(e)
    case Ok(named) =>
      Dicts.FromPairsDistinctKeys(named);
      Ok(Dicts.FromPairs(named))
  }
}

=== FILE: schema_laws.dfy ===
/** Properties of the object model: the parent codec round-trips, plain text
    is concatenation, accessors return exactly their variant, and the
    keyed views of a listing keep the last result per key. */
module SchemaLaws {
  import opened Wrappers
  import opened Json
  import Dicts
  import Filters
  import opened Schema

  // ---------------------------------------------------------------------------
  // Parents
  // ---------------------------------------------------------------------------

  /** Decoding the JSON of a parent gives the parent back. */
  lemma ParentRoundTrip(p: Parent)
    ensures DecodeParent(SerializeParent(p)) == Ok(p)
  {
    var j := SerializeParent(p);
    assert Member(j, "type") == Some(JStr(ParentTag(p)));
    assert j.fields[1..] == [(ParentTag(p), j.fields[1].1)];
    assert Member(j, ParentTag(p)) == Some(j.fields[1].1) by {
      if ParentTag(p) != "type" {
        assert Dicts.Get(j.fields[1..], ParentTag(p)) == Some(j.fields[1].1);
      }
    }
  }

  /** Whatever decodes to a parent carries that parent's tag and payload. */
  lemma DecodeParentSound(j: J, p: Parent)
    requires DecodeParent(j) == Ok(p)
    ensures Member(j, "type") == Some(JStr(ParentTag(p)))
    ensures p.WorkspaceParent? ==> Member(j, "workspace") == Some(JBool(p.workspace))
    ensures !p.WorkspaceParent? ==> Member(j, ParentTag(p)) == Some(JStr(ParentId(p).value))
  {
  }

  /** The decoder's error paths: a missing or non-string tag, an unknown
      tag, and a payload of the wrong type are each reported. */
  lemma DecodeParentErrors(j: J)
    requires j.JObj?
    ensures Member(j, "type").None? ==> DecodeParent(j) == Err(MissingField("type"))
    ensures Member(j, "type").Some? && !Member(j, "type").value.JStr? ==>
              DecodeParent(j) == Err(WrongType("type"))
    ensures forall t :: (Member(j, "type") == Some(JStr(t)) &&
              t !in {"database_id", "page_id", "block_id", "workspace"}) ==>
              DecodeParent(j) == Err(UnknownTag(t))
    ensures Member(j, "type") == Some(JStr("workspace")) && Member(j, "workspace").Some? &&
              !Member(j, "workspace").value.JBool? ==>
              DecodeParent(j) == Err(WrongType("workspace"))
  {
  }

  /** `id()` is nothing exactly for the workspace, and otherwise is the
      string stored under the parent's own tag. */
  lemma ParentIdUnderTag(p: Parent)
    ensures ParentId(p).None? <==> p.WorkspaceParent?
    ensures ParentId(p).Some? ==> Member(SerializeParent(p), ParentTag(p)) == Some(JStr(ParentId(p).value))
  {
    var j := SerializeParent(p);
    assert j.fields[1..] == [(ParentTag(p), j.fields[1].1)];
    if ParentTag(p) != "type" {
      assert Dicts.Get(j.fields[1..], ParentTag(p)) == Some(j.fields[1].1);
    }
  }

  // ---------------------------------------------------------------------------
  // Plain text
  // ---------------------------------------------------------------------------

  /** Joining two runs of text joins their results. */
  lemma {:induction false} JoinAppend(p: seq<Option<string>>, q: seq<Option<string>>)
    requires Join(p).Ok? && Join(q).Ok?
    ensures Join(p + q) == Ok(Join(p).value + Join(q).value)
  {
    if p == [] {
      assert p + q == q;
      assert Join(p).value + Join(q).value == Join(q).value;
    } else {
      assert (p + q)[0] == p[0];
      assert (p + q)[1..] == p[1..] + q;
      assert Join(p[1..]).Ok?;
      JoinAppend(p[1..], q);
      var s, x, y := p[0].value, Join(p[1..]).value, Join(q).value;
      assert Join(p) == Ok(s + x);
      assert s + (x + y) == (s + x) + y;
    }
  }

  /** A fragment with text contributes exactly that text. */
  lemma PlainTextSingle(f: RichTextFragment)
    requires HasPlainText(f)
    ensures PlainText([f]) == Ok(PlainTextOf(f))
  {
    var pt := FragmentPlainText(f).value;
    assert [f][0] == f && [f][1..] == [];
    assert CollectPlainTexts([]) == Ok([]);
    assert [pt] + [] == [pt];
    assert CollectPlainTexts([f]) == Ok([pt]);
    var parts := [Some(PlainTextOf(f))];
    assert parts[1..] == [];
    assert Join([]) == Ok("");
    assert PlainTextOf(f) + "" == PlainTextOf(f);
    assert Join(parts) == Ok(PlainTextOf(f));
  }

  /** Plain text of concatenated rich text is the concatenation of the parts'. */
  lemma PlainTextAppend(a: RichText, b: RichText)
    requires PlainText(a).Ok? && PlainText(b).Ok?
    ensures PlainText(a + b) == Ok(PlainText(a).value + PlainText(b).value)
  {
    var ca := CollectPlainTexts(a).value;
    var cb := CollectPlainTexts(b).value;
    assert forall i :: 0 <= i < |a + b| ==> HasPlainText((a + b)[i]) by {
      forall i | 0 <= i < |a + b| ensures HasPlainText((a + b)[i]) {
        if i < |a| { assert (a + b)[i] == a[i]; } else { assert (a + b)[i] == b[i - |a|]; }
      }
    }
    var c := CollectPlainTexts(a + b).value;
    assert c == ca + cb by {
      forall i | 0 <= i < |c| ensures c[i] == (ca + cb)[i] {
        if i < |a| { assert (a + b)[i] == a[i]; } else { assert (a + b)[i] == b[i - |a|]; }
      }
    }
    JoinAppend(ca, cb);
  }

  /** Which error `plain_text()` raises: the generator reads every attribute
      before `join` looks at any value, so a fragment without the attribute
      is reported ahead of an earlier `None`. */
  lemma PlainTextFailure(rt: RichText)
    requires PlainText(rt).Err?
    ensures (exists i :: 0 <= i < |rt| && rt[i].SimpleText?) ==>
              PlainText(rt).error.NoPlainTextAttribute? &&
              rt[PlainText(rt).error.index].SimpleText? &&
              forall i :: 0 <= i < PlainText(rt).error.index ==> !rt[i].SimpleText?
    ensures (forall i :: 0 <= i < |rt| ==> !rt[i].SimpleText?) ==>
              PlainText(rt).error.PlainTextNotText? &&
              rt[PlainText(rt).error.index].TextFragment? &&
              rt[PlainText(rt).error.index].textPlainText.None? &&
              forall i :: 0 <= i < PlainText(rt).error.index ==> HasPlainText(rt[i])
  {
    if forall i :: 0 <= i < |rt| ==> !rt[i].SimpleText? {
      var parts := CollectPlainTexts(rt).value;
      assert PlainText(rt) == Join(parts);
    }
  }

  /** Titles read the same text as the corrected rich-text reader. */
  lemma TitleAndRichTextAgree(id: string, rt: RichText)
    ensures TitlePlainText(TitleValue(id, rt)) == RichTextPlainText(RichTextValue(id, rt))
  {
  }

  /** The rich-text reader as written fails on every value. */
  lemma RichTextPlainTextAsWrittenFails(v: PropertyValue)
    requires v.RichTextValue?
    ensures RichTextPlainTextAsWritten(v) == Err(NoPlainTextAttribute(0))
  {
  }

  /** One text fragment reading "a": the reader as written fails where the
      corrected one returns "a". */
  lemma RichTextPlainTextCounterexample()
    ensures var v := RichTextValue("x", [TextFragment(TextObject("a", None), None, Some("a"), None)]);
            RichTextPlainTextAsWritten(v).Err? && RichTextPlainText(v) == Ok("a")
  {
    var f := TextFragment(TextObject("a", None), None, Some("a"), None);
    PlainTextSingle(f);
  }

  // ---------------------------------------------------------------------------
  // Property values
  // ---------------------------------------------------------------------------

  /** The status literals the value predicates test are the status names
      the filter builders send. */
  lemma StatusLiteralsMatchFilters(v: PropertyValue)
    requires v.StatusValue?
    ensures IsNotStarted(v) <==> v.status.name == Filters.StateName(Filters.NotStarted)
    ensures IsInProgress(v) <==> v.status.name == Filters.StateName(Filters.InProgress)
    ensures IsDone(v) <==> v.status.name == Filters.StateName(Filters.Done)
    ensures !(IsNotStarted(v) && IsInProgress(v))
    ensures !(IsNotStarted(v) && IsDone(v)) && !(IsInProgress(v) && IsDone(v))
  {
  }

  /** Exactly one of a formula's four readers succeeds. */
  lemma FormulaReadersExclusive(v: PropertyValue)
    requires v.FormulaValue?
    ensures (if FormulaAsBoolean(v).Ok? then 1 else 0) + (if FormulaAsNumber(v).Ok? then 1 else 0) +
            (if FormulaAsString(v).Ok? then 1 else 0) + (if FormulaAsDate(v).Ok? then 1 else 0) == 1
  {
  }

  /** An end date is only ever read alongside a start date. */
  lemma DateEndNeedsStart(v: PropertyValue)
    requires v.DateValue?
    ensures DateEnd(v).Some? ==> DateStart(v).Some?
  {
  }

  /** A property value's tag names its variant, so a typed accessor returns
      exactly the variant it is named after. */
  lemma ValueTagNamesVariant(v: PropertyValue)
    ensures ValueTag(v) == "checkbox" <==> v.CheckboxValue?
    ensures ValueTag(v) == "created_by" <==> v.CreatedByValue?
    ensures ValueTag(v) == "created_time" <==> v.CreatedTimeValue?
    ensures ValueTag(v) == "date" <==> v.DateValue?
    ensures ValueTag(v) == "email" <==> v.EmailValue?
    ensures ValueTag(v) == "files" <==> v.FilesValue?
    ensures ValueTag(v) == "formula" <==> v.FormulaValue?
    ensures ValueTag(v) == "last_edited_by" <==> v.LastEditedByValue?
    ensures ValueTag(v) == "last_edited_time" <==> v.LastEditedTimeValue?
    ensures ValueTag(v) == "multi_select" <==> v.MultiSelectValue?
    ensures ValueTag(v) == "number" <==> v.NumberValue?
    ensures ValueTag(v) == "people" <==> v.PeopleValue?
    ensures ValueTag(v) == "phone_number" <==> v.PhoneNumberValue?
    ensures ValueTag(v) == "relation" <==> v.RelationValue?
    ensures ValueTag(v) == "rich_text" <==> v.RichTextValue?
    ensures ValueTag(v) == "rollup" <==> v.RollupValue?
    ensures ValueTag(v) == "select" <==> v.SelectValue?
    ensures ValueTag(v) == "status" <==> v.StatusValue?
    ensures ValueTag(v) == "title" <==> v.TitleValue?
    ensures ValueTag(v) == "url" <==> v.UrlValue?
    ensures ValueTag(v) == "unique_id" <==> v.UniqueIdValue?
    ensures ValueTag(v) == "verification" <==> v.VerificationValue?
  {
  }

  /** The page accessors: found and of the right variant, or the reason not. */
  lemma PageAccessors(page: Page, name: string)
    ensures PageCheckbox(page, name).Ok? <==> name in page.properties && page.properties[name].CheckboxValue?
    ensures PageDate(page, name).Ok? <==> name in page.properties && page.properties[name].DateValue?
    ensures PageRelation(page, name).Ok? <==> name in page.properties && page.properties[name].RelationValue?
    ensures PageStatus(page, name).Ok? <==> name in page.properties && page.properties[name].StatusValue?
    ensures PageTitle(page, name).Ok? <==> name in page.properties && page.properties[name].TitleValue?
    ensures name !in page.properties ==> PageStatus(page, name) == Err(MissingProperty(name))
  {
    if name in page.properties {
      ValueTagNamesVariant(page.properties[name]);
    }
  }

  /** `name()` succeeds exactly when the page has a title called "Name"
      whose every fragment carries text. */
  lemma PageNameSpec(page: Page)
    ensures PageName(page).Ok? <==>
              DefaultTitle in page.properties && page.properties[DefaultTitle].TitleValue? &&
              forall i :: 0 <= i < |page.properties[DefaultTitle].title| ==>
                HasPlainText(page.properties[DefaultTitle].title[i])
    ensures PageName(page).Ok? ==> PageName(page) == PlainText(page.properties[DefaultTitle].title)
  {
    PageAccessors(page, DefaultTitle);
  }

  /** A database's column accessors behave as the page's do. */
  lemma DatabaseColumnSpec(db: Database, name: string, tag: string)
    ensures DatabaseColumn(db, name, tag).Ok? <==> name in db.properties && ColumnTag(db.properties[name]) == tag
    ensures DatabaseColumn(db, name, tag).Ok? ==> DatabaseColumn(db, name, tag).value == db.properties[name]
    ensures name !in db.properties ==> DatabaseColumn(db, name, tag) == Err(MissingProperty(name))
  {
  }

  // ---------------------------------------------------------------------------
  // Query results
  // ---------------------------------------------------------------------------

  /** Negative indices count from the end; `first()` is index zero. */
  lemma IndexingFromEitherEnd<T>(q: QueryResult<T>, k: nat)
    requires k < Count(q)
    ensures At(q, -(k + 1)) == At(q, Count(q) - 1 - k)
    ensures First(q) == At(q, 0)
  {
  }

  /** `first()` fails exactly on an empty listing, as indexing does. */
  lemma FirstFailsWhenEmpty<T>(q: QueryResult<T>)
    ensures First(q).Err? <==> Count(q) == 0
    ensures Count(q) == 0 ==> forall i :: At(q, i).Err?
  {
  }

  /** `inverse_map(f)` has one entry per distinct key, and each key keeps
      the last result that produced it. */
  lemma InverseMapSpec<T, K>(q: QueryResult<T>, f: T -> K, i: int)
    requires 0 <= i < |q.results|
    requires forall j :: i < j < |q.results| ==> f(q.results[j]) != f(q.results[i])
    ensures Dicts.DistinctKeys(InverseMap(q, f))
    ensures Dicts.Get(InverseMap(q, f), f(q.results[i])) == Some(q.results[i])
  {
    var ps := KeyedBy(q.results, f);
    Dicts.FromPairsDistinctKeys(ps);
    assert Dicts.LastFor(ps, i);
    Dicts.FromPairsLastWins(ps, i);
  }

  /** `by_id()` keys every result by its id; a repeated id keeps the last. */
  lemma ByIdSpec<T>(q: QueryResult<T>, idOf: T -> string, i: int)
    requires 0 <= i < |q.results|
    requires forall j :: i < j < |q.results| ==> idOf(q.results[j]) != idOf(q.results[i])
    ensures Dicts.Get(ById(q, idOf), idOf(q.results[i])) == Some(q.results[i])
    ensures Dicts.Keys(ById(q, idOf)) == Dicts.Keys(KeyedBy(q.results, idOf))
  {
    InverseMapSpec(q, idOf, i);
  }

  /** With no key repeated, `inverse_map(f)` keeps every result, in order. */
  lemma InverseMapDistinct<T, K>(q: QueryResult<T>, f: T -> K)
    requires forall i, j :: 0 <= i < j < |q.results| ==> f(q.results[i]) != f(q.results[j])
    ensures |InverseMap(q, f)| == Count(q)
    ensures forall i :: 0 <= i < Count(q) ==> InverseMap(q, f)[i] == (f(q.results[i]), q.results[i])
  {
    var ps := KeyedBy(q.results, f);
    Dicts.FromPairsDistinct(ps);
  }

  /** `map(f)` keys by id; each id keeps `f` of its last result. */
  lemma MapByIdSpec<T, U>(q: QueryResult<T>, idOf: T -> string, f: T -> U, i: int)
    requires 0 <= i < |q.results|
    requires forall j :: i < j < |q.results| ==> idOf(q.results[j]) != idOf(q.results[i])
    ensures Dicts.Get(MapById(q, idOf, f), idOf(q.results[i])) == Some(f(q.results[i]))
    ensures Dicts.Keys(MapById(q, idOf, f)) == Dicts.Keys(KeyedBy(q.results, idOf))
  {
    var ps := MapPairs(q.results, idOf, f);
    assert Dicts.LastFor(ps, i);
    Dicts.FromPairsLastWins(ps, i);
    var ks := KeyedBy(q.results, idOf);
    forall k ensures k in Dicts.Keys(ps) <==> k in Dicts.Keys(ks) {
      Dicts.KeysIndex(ps, k);
      Dicts.KeysIndex(ks, k);
      if k in Dicts.Keys(ks) {
        var j :| 0 <= j < |ks| && ks[j].0 == k;
        assert ps[j].0 == k;
      }
    }
  }

  /** `by_name()` succeeds exactly when every page has a name; an empty
      listing gives the empty dictionary. */
  lemma ByNameSucceeds(q: QueryResult<Page>)
    ensures ByName(q).Ok? <==> forall j :: 0 <= j < |q.results| ==> PageName(q.results[j]).Ok?
    ensures q.results == [] ==> ByName(q) == Ok([])
  {
  }

  /** When `by_name()` succeeds, each name keeps the last page carrying it. */
  lemma ByNameSpec(q: QueryResult<Page>, i: int)
    requires 0 <= i < |q.results|
    ensures ByName(q).Ok? && (forall j :: i < j < |q.results| ==> PageName(q.results[j]) != PageName(q.results[i])) ==>
              Dicts.Get(ByName(q).value, PageName(q.results[i]).value) == Some(q.results[i])
  {
    if ByName(q).Ok? && (forall j :: i < j < |q.results| ==> PageName(q.results[j]) != PageName(q.results[i])) {
      var named := PageNames(q.results).value;
      assert Dicts.LastFor(named, i) by {
        forall j | i < j < |named| ensures named[j].0 != named[i].0 {
          assert PageName(q.results[j]) != PageName(q.results[i]);
        }
      }
      Dicts.FromPairsLastWins(named, i);
    }
  }

  /** A page whose title reads `text`. */
  function NamedPage(id: string, text: string): Page {
    Page(id, "", "", "", "", None, None, WorkspaceParent(true), false,
         map["Name" := TitleValue("title", [TextFragment(TextObject(text, None), None, Some(text), None)])],
         "", None)
  }

  /** Two pages both named "a": `by_name()` keeps one entry, the later page. */
  lemma ByNameDuplicateScenario()
    ensures var q := QueryResult("page_or_database", [NamedPage("p1", "a"), NamedPage("p2", "a")], None, false, "r");
            ByName(q).Ok? && |ByName(q).value| == 1 && ByName(q).value[0] == ("a", NamedPage("p2", "a"))
  {
    var p1 := NamedPage("p1", "a");
    var p2 := NamedPage("p2", "a");
    PlainTextSingle(TextFragment(TextObject("a", None), None, Some("a"), None));
    assert PageName(p1) == Ok("a");
    assert PageName(p2) == Ok("a");
    var q := QueryResult("page_or_database", [p1, p2], None, false, "r");
    assert q.results[1..] == [p2];
    assert q.results[1..][1..] == [];
    assert PageNames([]) == Ok([]);
    assert [p2][0] == p2 && [p2][1..] == [];
    assert [("a", p2)] + [] == [("a", p2)];
    assert PageNames([p2]) == Ok([("a", p2)]);
    assert q.results[0] == p1;
    assert [("a", p1)] + [("a", p2)] == [("a", p1), ("a", p2)];
    assert PageNames(q.results) == Ok([("a", p1), ("a", p2)]);
    var ps := [("a", p1), ("a", p2)];
    assert ps[..1] == [("a", p1)];
    assert Dicts.FromPairs(ps[..1]) == [("a", p1)] by {
      assert ps[..1][..0] == [];
    }
  }
}

=== FILE: wrappers.dfy ===
/** Optional values and results with an error, the two failure-carrying
    shapes the rest of the model returns instead of raising. */
module Wrappers {

  /** `None` is Python's `None`; `Some(v)` is a present value. */
  datatype Option<+T> = None | Some(value: T) {

    /** The value, or `default` when absent. */
    function GetOr(default: T): T {
      match this
      case Some(v) => v
      case None => default
    }
  }

  /** A computation that either produced a value or failed with an error
      (a raised exception in the modelled program). */
  datatype Result<+T, +E> = Ok(value: T) | Err(error: E)
}
